=== FILE: README.md ===
# math_machines in Dafny

A model of the memoised recurrence engine of `math_machines`, instantiated at
`T = I = u128` with unbounded naturals in place of `u128`.

- **Phases** (`phases.dfy`): the checkpoint record `Phase`. It is a window of three value slots plus the
  index `input` the window belongs to. It has the zero constructor, the accessors, slot writes,
  `setinput` and `rotate`. Its derived order compares the window lexicographically first and the index
  second.
- **Caches** (`caches.dfy`): `MachineCache`. This is a set of phases plus a map from index to usage age.
  - `find_rev`, `find` and `find_closest` scan the phases in descending order.
  - Each lookup hit ages every index and then resets the age of the *query key*.
  - `push` resets the pushed index and ages the rest.
  - `drop` removes one phase and its age.
  - `drop_invalid` is the descending sweep that keeps a phase only while its age is below the running
    highest age. The sweep's `expect("usage count")` panic is an explicit outcome.
- **Calculators** (`calculators.dfy`): the two integer recurrences, with `calculate(n, phase)` as a
  number of step applications.
  - Fibonacci: `[a, b, c] -> [max(1, a + b), a, b]`.
  - Primes: slot 0 becomes `next_prime(slot 0)`.

  The module also proves resumption: calculating to `m` and then to `n` equals calculating to `n`
  directly. It proves the closed forms as well: F(n) for Fibonacci, and the n-th prime for primes.
- **Primality** (`primality.dfy`): `is_prime` (6k±1 trial division) and `next_prime`, proved equal to
  primality and to "least prime above", respectively. Termination of `next_prime` rests on Euclid's
  argument (a prime divides `n! + 1`).
- **Machines** (`machines.dfy`): `Machine::new`, the `LRUCachable` pieces, and `lru_calculate` (find
  closest → sweep if due → calculate → push) and `raw_calculate`. The invariant `Valid` says that
  every cached phase is the one reached from `Phase::new()` at its input, and that the cache is well
  aged. `new` establishes `Valid` and `lru_calculate` keeps it. Under `Valid`, `lru_calculate` never
  panics and returns exactly what `raw_calculate` returns (`LruCalculateCorrect`, `Serve`).
- **DocTests** (`doctests.dfy`): the concrete values of the library's documentation examples, proved on
  the model.

The mutating methods (`&mut self`) are pure functions from the old state to the new state and the
result. The library's `calculators.rs` and `machines.rs` hold the same recurrence code twice, once
under the `Calculator` trait and once under `MathMachine`. It is modelled once here, and rows below
cite whichever copy they use.

## Model

| member | source | states |
|---|---|---|
| Phases.Zero | src/phases.rs:110-112 | `Phase::new()` has input 0 and all three slots 0 |
| Phases.Set | src/phases.rs:99-101 | writing slot `i` sets that slot to `v`, leaves the other two slots and the input as they were |
| Phases.SetInput | src/phases.rs:57-62 | `setinput(n)` makes the input `n` and leaves the window untouched |
| Phases.AccessorLaws | src/phases.rs:39-49 | `result` reads back a value written to slot 0; a slot write keeps the input; writing a slot's own value back or resetting the old input restores the phase; `setinput` keeps `result` |
| Phases.Rotate | src/phases.rs:53-55 | `rotate(k)` keeps the phase's input; where the slots go is stated by `Phases.RotateMoves` |
| Phases.RotateOne | src/phases.rs:50-55 | `rotate(1)` sends `[a, b, c]` to `[c, a, b]`, so slots 0 and 1 keep their values exactly when all three slots are equal (the doc comment's "preserving the 0th and 1st values" holds only then) |
| Phases.RotateMoves | src/phases.rs:53-55 | `rotate(k)` moves slot `i` to slot `(i + k) % 3` |
| Phases.RotateInverse | src/phases.rs:53-55 | rotating by `k` then by `3 - k` restores the phase; rotating by 0 or 3 is the identity |
| Phases.CompareSlotsLexicographic | src/phases.rs:30-32 | the derived comparison of slot arrays answers `Lt` exactly when the first slot where they differ is smaller, `Eq` exactly on equal arrays, and is antisymmetric |
| Phases.CompareEqualFlip | src/phases.rs:30-34 | the derived `Ord` on phases answers `Equal` exactly on equal phases and flips when the arguments are swapped |
| Phases.LessStrictTotal | src/phases.rs:30-34 | `<` on phases is irreflexive, asymmetric, transitive and total on distinct phases |
| Phases.LessWindowFirst | src/phases.rs:30-34 | phases with different windows are ordered by the window alone; the input only breaks ties between equal windows |
| Caches.HighestUsage | src/caches.rs:65-69 | `highest_usage` is an age on record that bounds every recorded age, and 0 when nothing is recorded |
| Caches.UpdateUsage | src/caches.rs:76-85 | `update_usage(filt)` adds one to exactly the ages whose pair passes the filter, reading the pre-call values, and keeps the key set |
| Caches.AgeAllHighest | src/caches.rs:143-145 | ageing every index on a non-empty map raises the highest age by exactly one |
| Caches.ValidUsage | src/caches.rs:88-92 | `valid_usage(key)` holds exactly when some recorded age is strictly greater than the key's age |
| Caches.Descending | src/caches.rs:139-140 | the reverse iteration lists every cached phase exactly once, strictly decreasing in phase order |
| Caches.FirstMatchGreatest | src/caches.rs:142 | in a strictly descending list, `find` hits iff some element passes, and the hit is greater than every other element that passes |
| Caches.FindRev | src/caches.rs:138-150 | a hit returns the greatest cached phase passing the predicate, keeps the entries, ages every recorded index by one and gives the query key age 0; a miss happens iff no phase passes and changes nothing |
| Caches.Find | src/caches.rs:130-132 | `find(key)` hits iff a phase with input `key` is cached and returns the greatest such phase in phase order, with the ageing of `find_rev` |
| Caches.FindClosest | src/caches.rs:133-137 | `find_closest(key)` hits iff some cached input is at most `key`, and returns the greatest such phase in phase order, with the ageing of `find_rev` |
| Caches.Push | src/caches.rs:151-159 | after `push(e)`, `e` is cached, no other phase comes or goes, the size grows by at most one (not at all if `e` was cached), `e`'s index has age 0 and every other recorded index ages by one |
| Caches.Drop | src/caches.rs:105-114 | `drop(key)` hits iff a phase with input `key` is cached; a hit removes the greatest such phase in phase order and the key's age, and ages every other index once; a miss changes nothing |
| Caches.SweepRemoves | src/caches.rs:120-127 | a completed sweep removes only phases it visited, and the cache keeps exactly the phases not reported as removed |
| Caches.SweepRemovesAges | src/caches.rs:124-126 | a completed sweep deletes the ages of exactly the removed phases' inputs and keeps every other age unchanged |
| Caches.SweepKeeps | src/caches.rs:121-123 | a visited phase that survives passes the predicate and has an age below the highest age of the cache before the sweep |
| Caches.SweepDropsOldest | src/caches.rs:121-126 | a visited phase whose age is missing or at least the highest age the sweep started from is removed, so a phase holding the highest age never survives |
| Caches.SweepPanics | src/caches.rs:88-89 | a visited phase that passes the predicate but has no age makes the sweep panic, whatever the sweep did before reaching it |
| Caches.SweepNoPanic | src/caches.rs:88-89 | the `expect("usage count")` cannot fire when every visited input has an age and no input is visited twice |
| Caches.SweepRule | src/caches.rs:118-127 | for a visiting order of cached, aged phases with distinct inputs, `Caches.Sweep` completes and keeps a visited phase exactly when it passes the predicate and its age is below the age of some index not yet deleted when the sweep reaches it (the running highest age) |
| Caches.SweepOverAllRule | src/caches.rs:115-129 | on a well-aged cache, the same keep-or-remove rule holds for every phase of the descending visiting order |
| Caches.SweepDropsInOrder | src/caches.rs:118-124 | the removed phases come out in descending phase order |
| Caches.DropInvalid | src/caches.rs:115-129 | `drop_invalid` partitions the cached phases into kept and returned ones (returned in descending order) and deletes the returned ones' ages; every kept phase passes the predicate and was younger than the highest age; every phase with the highest age is removed; it panics (`expect("usage count")`) whenever a phase passing the predicate has no age; on a well-aged cache it never panics, the result is well aged, and each phase is kept exactly when it passes the predicate and its age is below the running highest age when the sweep reaches it |
| Machines.New | src/machines.rs:46-53 | `Machine::new` has an empty cache (length 0, highest age 0) and stores the recurrence and both caps unchanged |
| Machines.SweepTrigger | src/machines.rs:66-71 | the sweep is skipped exactly when the cache holds more phases than the entry cap and its highest age exceeds the age cap; an empty cache is always swept |
| Machines.Lookup | src/machines.rs:72-74 | `lookup(n)` behaves as `find_closest(n)` on the cache: it hits iff some cached input is at most `n` and returns the greatest such phase in phase order; on a hit the key `n` gets age 0 and every other recorded index ages by one; a miss changes nothing |
| Machines.FindPhase | src/machines.rs:173-185 | `lru_find_phase(n)` returns, when some cached input is at most `n`, the greatest such phase in phase order, giving `n` age 0 and ageing every other recorded index by one; otherwise it returns `Phase::new()` and leaves the machine unchanged; either way the phase's input never exceeds `n` |
| Machines.DropIfCapacityMet | src/machines.rs:163-171 | without a trigger the machine is unchanged; with one, it panics whenever a cached phase has no age, the sweep only removes phases, every surviving phase had an age below the highest, every phase with the highest age is removed, and exactly the removed phases' ages are deleted; on a well-aged cache it cannot panic, keeps the cache well aged, and keeps each phase exactly when its age is below the running highest age when the sweep reaches it |
| Machines.DropAllTied | src/machines.rs:63-65 | with the always-true predicate, a sweep over a cache whose ages all tie at the highest removes every phase |
| Machines.DoCalculation | src/machines.rs:148-161 | `lru_do_calculation` caches the calculated phase for `n` with age 0, ages every other recorded index by one, and returns its head slot |
| Machines.LruCalculate | src/machines.rs:122-131 | a completed `lru_calculate(n)` leaves a cached phase with input `n` whose head slot is the answer, with age 0 for `n` and the caps unchanged |
| Machines.RawCalculate | src/machines.rs:136-146 | `raw_calculate(n)` is F(n) for Fibonacci, and for primes the `n`-th prime (a prime with exactly `n` primes up to it), 0 at `n = 0` |
| Machines.NewValid | src/machines.rs:46-53 | a fresh machine satisfies the cache invariant |
| Machines.FindPhaseValid | src/machines.rs:173-185 | on a valid machine the phase `lru_find_phase` hands over is the phase reached from `Phase::new()` at its input |
| Machines.DropValid | src/machines.rs:163-171 | on a valid machine the sweep does not panic and keeps the machine valid |
| Machines.PushValid | src/machines.rs:81-83 | `update` with a phase reached from `Phase::new()` keeps the machine valid |
| Machines.LruCalculateCorrect | src/machines.rs:122-146 | on a valid machine, `lru_calculate(n)` completes, returns what `raw_calculate(n)` returns, keeps the machine valid, and caches the phase for `n` |
| Machines.RawCalculateOnlyRecurrence | src/machines.rs:136-146 | `raw_calculate` depends on the recurrence alone, not on the cache or the caps |
| Machines.Query | src/machines.rs:122-131 | one `lru_calculate` on a valid machine returns the raw answer and a valid machine with the same recurrence and caps |
| Machines.Serve | src/machines.rs:122-131 | a sequence of `lru_calculate` calls on a valid machine returns, for every query, what `raw_calculate` returns on the original machine |
| Calculators.FibonacciStep | src/calculators.rs:61-64 | one Fibonacci iteration keeps the phase's input; its slots are stated by `Calculators.FibonacciStepSlots` |
| Calculators.PrimesStep | src/calculators.rs:130-132 | one primes iteration keeps the phase's input and leaves slot 0 at most 2 or odd, so the next iteration is defined too |
| Calculators.FibonacciStepSlots | src/calculators.rs:61-64 | one Fibonacci iteration turns the window `[a, b, c]` into `[max(1, a + b), a, b]` |
| Calculators.PrimesStepSlots | src/calculators.rs:130-132 | one primes iteration replaces slot 0 by `next_prime(slot 0)` and keeps slots 1 and 2 |
| Calculators.Calculate | src/machines.rs:189-197 | `calculate(n, p)` returns a phase with input `n`; when `n` is at most `p`'s input no step runs and only the input changes |
| Calculators.CalculateRelabels | src/calculators.rs:58-65 | `calculate(n, p)` is `p` advanced by the number of indices from its input up to `n`, relabelled with `n` |
| Calculators.AdvanceAdd | src/calculators.rs:61-64 | `a` iterations followed by `b` iterations are `a + b` iterations |
| Calculators.Resumption | src/machines.rs:187-197 | for `input(p) <= m <= n`, calculating to `m` and then to `n` gives the same phase as calculating straight to `n` |
| Calculators.ResumeFromZero | src/machines.rs:128-130 | the phase reached from `Phase::new()` at `m`, calculated on to `n >= m`, is the phase reached from `Phase::new()` at `n` |
| Calculators.FibonacciWindow | src/calculators.rs:56-66 | from `Phase::new()`, the window after `n` iterations is `[F(n), F(n-1), F(n-2)]`, with 0 for indices below 0 |
| Calculators.FibonacciResult | src/calculators.rs:56-66 | the Fibonacci result from `Phase::new()` at `n` is F(n), with F(0) = 0 and F(1) = 1 |
| Calculators.FibonacciHeadPositive | src/calculators.rs:63 | after at least one Fibonacci iteration, from any phase, slot 0 is at least 1 |
| Calculators.PrimesTail | src/calculators.rs:130-132 | the primes iterations never change slots 1 and 2 |
| Calculators.NextPrimeCount | src/calculators.rs:114-122 | `next_prime(v)` has exactly one more prime up to it than `v` has |
| Calculators.PrimesNth | src/calculators.rs:125-134 | from `Phase::new()`, the primes result after `n` iterations is 0 at `n = 0` and otherwise a prime with exactly `n` primes up to it |
| Calculators.PrimesResult | src/machines.rs:243-253 | the primes machine's result from `Phase::new()` at `n >= 1` is the `n`-th prime |
| Primality.IsPrimeCorrect | src/calculators.rs:92-105 | `is_prime(n)` (`Primality.IsPrime`) holds exactly when `n` is prime |
| Primality.TrialFromCorrect | src/calculators.rs:97-104 | the 6k±1 trial loop, entered with no divisor below the stepper, answers exactly primality |
| Primality.NextPrime | src/calculators.rs:114-122 | `next_prime(n)` is strictly above `n` and is 2 or odd, on the inputs where the loop terminates |
| Primality.NextPrimeSpec | src/machines.rs:232-240 | `next_prime(n)` is prime and no number strictly between `n` and it is prime |
| Primality.PrimeOddOrTwo | src/calculators.rs:131 | every prime is 2 or odd, so `next_prime` may be applied to every value the primes machine produces |
| DocTests.IsPrimeExamples | src/calculators.rs:88-90 | `is_prime(98)` and `is_prime(144)` are false and `is_prime(181)` is true |
| DocTests.NextPrimeExamples | src/calculators.rs:111-112 | `next_prime(3517) == 3527` and `next_prime(7489) == 7499` |
| DocTests.FibonacciExample | src/machines.rs:95-97 | `lru_calculate` on `Machine::new(FibonacciMachine, 128, 50)` at 26 returns 121393 |
| DocTests.PrimesExample | src/machines.rs:112-114 | `lru_calculate` on `Machine::new(PrimesMachine, 128, 50)` at 26 returns 101 |
| DocTests.TwentySixthPrime | src/calculators.rs:49-51 | 101 is the only prime with exactly 26 primes up to it |
| DocTests.PrimeCountPinsPrime | src/calculators.rs:130-132 | two primes with the same count of primes up to them are equal, so the primes machine's answer is determined by its index |
| DocTests.SmallValues | src/machines.rs:136-146 | from `Phase::new()`, both recurrences give 0 at 0; Fibonacci gives 5 at 5 and 55 at 10; primes gives 2 at 1 and 11 at 5 |

## Behaviour worth knowing

- **`find_closest`.** Its name and the comment in its body ("closest ... preceeding cached phase",
  src/caches.rs:47-49 and 134-135) suggest the phase with the largest input at most `n`. It returns the
  greatest phase in the derived phase order among those with input at most `n`, and that order compares
  the window before the input. The result can therefore be a phase with a smaller input. Correctness of
  `lru_calculate` does not depend on this: any cached phase with input at most `n` resumes to the right
  answer (`Calculators.Resumption`).
- **Sweep triggers.** The doc comments of `is_too_big` ("too many entries") and `is_too_old` ("entries
  ... greater than or equal to the maximum usage age", src/caches.rs:166-171) describe a cache beyond its
  caps. The code tests `cap >= len` and `cap >= highest_usage`, which hold while the cache is within its
  caps (`Machines.SweepTrigger`). A sweep therefore runs on every call while the cache is small.
- **Sweep scope.** `drop_invalid` keeps a phase only while its age is below the highest age among the
  indices still on record, and it recomputes that highest age after each deletion. One sweep can
  therefore cascade past the oldest phase: a cache whose ages all tie is emptied
  (`Caches.SweepRule`, `Machines.DropAllTied`).
- **Small values.** From `Phase::new()`, both recurrences give 0 at index 0. Fibonacci gives 5 at 5 and
  55 at 10, and primes gives 2 at 1 and 11 at 5 (`DocTests.SmallValues`).
- **`rotate`.** The doc comment of `rotate` (src/phases.rs:50-52) says the 0th and 1st values are
  preserved. `rotate_right` moves all three slots, so they stay equal only when all three slots hold
  the same value (`Phases.RotateOne`).

## Left out

- src/main.rs, the superseded `math_machine.rs` prototype and src/lib.rs (re-exports only) are not part
  of this model.
- `Harmonic`: it computes in `f64`, and floating point is not modelled.
- `Debug` and `Display` for `Phase`: these are formatting only.
- The `max_entry_cap()` and `max_usage_age()` getters: the model reads the two fields directly.
- `len()`: this is `Caches.Len`, the cardinality of the phase set, with no contract of its own.
- `Calculators.Calculate`: does not model `u128` overflow. Fibonacci overflows past about index 186,
  and `stepper.pow(2)` in `is_prime` can overflow. All arithmetic is on unbounded naturals.
- `Caches.Push`: does not model `usize` overflow of the age counters.
- `Primality.NextPrime`: requires its argument to be at most 2 or odd. On an even argument of at least
  4, the source's `n += 2` loop never reaches a prime and does not terminate. `Calculators.Steppable`
  and `Machines.Runnable` carry this requirement to the recurrences. It always holds on a valid machine
  (`Machines.ValidRunnable`).
- `MachineError` has no values, so every `Result<_, MachineError>` is modelled as its `Ok` value. The
  only failure modelled is the `expect("usage count")` panic inside `drop_invalid`
  (`Caches.SweepResult`, `Machines.Outcome`).
- Ownership, cloning and hashing (`to_owned`, `clone`, `Hash`): the model uses value semantics, with
  `set` and `map`.
- The `FnMut` predicates passed to `find_rev` and `drop_invalid`: these are pure functions
  `Phase -> bool`. A stateful predicate is not modelled.

=== FILE: caches.dfy ===
/**
  `MachineCache` (src/caches.rs): a `BTreeSet` of phases together with a
  `HashMap` from input index to its "usage", the number of cache accesses
  since the index was last touched.

  Every `&mut self` operation is a function from the old cache to the new
  cache (and whatever the operation returns). The ordered set becomes a
  `set<Phase>`; its descending iteration order is `Descending`.
*/
module Caches {
  import opened Phases

  datatype CacheError = PhaseNotFound

  /** `CacheResult<T>`. */
  datatype CacheResult<T> = Ok(value: T) | Err(error: CacheError)

  datatype Cache = Cache(entries: set<Phase>, usages: map<nat, nat>)

  /** `MachineCache::default()`. */
  function Empty(): Cache
  {
    Cache({}, map[])
  }

  /** `len()`: the number of phases held. */
  function Len(c: Cache): nat
  {
    |c.entries|
  }

  /**
    Every cached phase has an age on record, and no two cached phases share
    an input: the shape a cache keeps while it is only fed by lookups and
    by pushing one phase per input.
  */
  predicate WellAged(c: Cache)
  {
    && (forall p :: p in c.entries ==> p.input in c.usages)
    && (forall p, q :: p in c.entries && q in c.entries && p.input == q.input ==> p == q)
  }

  // ---------------------------------------------------------------------
  // Usages
  // ---------------------------------------------------------------------

  lemma MaxExists(s: set<nat>)
    requires s != {}
    ensures exists m :: m in s && forall x :: x in s ==> x <= m
    decreases |s|
  {
    var x :| x in s;
    var rest := s - {x};
    if rest == {} {
      assert s == {x};
    } else {
      MaxExists(rest);
      var m :| m in rest && forall y :: y in rest ==> y <= m;
      var big := if m < x then x else m;
      forall y | y in s
        ensures y <= big
      {
        if y != x {
          assert y in rest;
        }
      }
      assert big in s;
    }
  }

  function MaxOf(s: set<nat>): (m: nat)
    requires s != {}
    ensures m in s && forall x :: x in s ==> x <= m
  {
    MaxExists(s);
    var m :| m in s && forall x :: x in s ==> x <= m;
    m
  }

  /**
    `highest_usage()`: the last of the sorted usage values, or 0 without
    any; that is, the largest age on record.
  */
  function HighestUsage(c: Cache): (h: nat)
    ensures forall k :: k in c.usages ==> c.usages[k] <= h
    ensures |c.usages| == 0 ==> h == 0
    ensures |c.usages| > 0 ==> exists k :: k in c.usages && c.usages[k] == h
  {
    if |c.usages| == 0 then 0
    else
      assert forall k :: k in c.usages ==> c.usages[k] in c.usages.Values;
      assert c.usages.Values != {} by {
        var k :| k in c.usages;
        assert c.usages[k] in c.usages.Values;
      }
      MaxOf(c.usages.Values)
  }

  /**
    `update_usage(filt)`: every age whose `(input, age)` pair passes the
    filter goes up by one, read from a copy taken before the loop.
  */
  function UpdateUsage(u: map<nat, nat>, filt: (nat, nat) -> bool): (r: map<nat, nat>)
    ensures r.Keys == u.Keys
    ensures forall k :: k in u && filt(k, u[k]) ==> r[k] == u[k] + 1
    ensures forall k :: k in u && !filt(k, u[k]) ==> r[k] == u[k]
  {
    map k | k in u :: if filt(k, u[k]) then u[k] + 1 else u[k]
  }

  /** `update_usage(|_| true)`: every age goes up by one. */
  function AgeAll(u: map<nat, nat>): (r: map<nat, nat>)
    ensures r.Keys == u.Keys
    ensures forall k :: k in u ==> r[k] == u[k] + 1
  {
    UpdateUsage(u, (k: nat, a: nat) => true)
  }

  /** A lookup hit: every recorded age goes up by one, then `key` is reset to 0. */
  function Touch(u: map<nat, nat>, key: nat): (r: map<nat, nat>)
    ensures r.Keys == u.Keys + {key}
    ensures r[key] == 0
    ensures forall k :: k in u && k != key ==> r[k] == u[k] + 1
  {
    AgeAll(u)[key := 0]
  }

  /** Ageing every entry moves the highest age up by exactly one (on a non-empty map). */
  lemma AgeAllHighest(c: Cache)
    requires |c.usages| > 0
    ensures HighestUsage(Cache(c.entries, AgeAll(c.usages))) == HighestUsage(c) + 1
  {
    var h := HighestUsage(c);
    var d := Cache(c.entries, AgeAll(c.usages));
    var k :| k in c.usages && c.usages[k] == h;
    assert d.usages[k] == h + 1;
    assert |d.usages| > 0 by {
      assert k in d.usages;
    }
  }

  /**
    `valid_usage(key)`: the key's age is below the highest age. The source
    reads the age with `expect`, so the key must have one.
  */
  function ValidUsage(c: Cache, key: nat): (b: bool)
    requires key in c.usages
    ensures b <==> exists k :: k in c.usages && c.usages[key] < c.usages[k]
  {
    c.usages[key] < HighestUsage(c)
  }

  // ---------------------------------------------------------------------
  // Ordered iteration
  // ---------------------------------------------------------------------

  lemma MaxPhaseExists(s: set<Phase>)
    requires s != {}
    ensures exists m :: m in s && forall q :: q in s && q != m ==> Less(q, m)
    decreases |s|
  {
    var x :| x in s;
    var rest := s - {x};
    if rest == {} {
      assert s == {x};
    } else {
      MaxPhaseExists(rest);
      var m :| m in rest && forall q :: q in rest && q != m ==> Less(q, m);
      LessStrictTotal(x, m, x);
      if Less(x, m) {
        forall q | q in s && q != m
          ensures Less(q, m)
        {
          if q != x {
            assert q in rest;
          }
        }
      } else {
        forall q | q in s && q != x
          ensures Less(q, x)
        {
          assert q in rest;
          LessStrictTotal(q, m, x);
        }
      }
    }
  }

  lemma LessAsymmetric()
    ensures forall p, q :: Less(p, q) ==> !Less(q, p)
  {
    forall p, q | Less(p, q)
      ensures !Less(q, p)
    {
      LessStrictTotal(p, q, p);
    }
  }

  /** The greatest phase of a non-empty set, the first one `iter().rev()` yields. */
  function MaxPhase(s: set<Phase>): (m: Phase)
    requires s != {}
    ensures m in s && forall q :: q in s && q != m ==> Less(q, m)
  {
    MaxPhaseExists(s);
    LessAsymmetric();
    var m :| m in s && forall q :: q in s && q != m ==> Less(q, m);
    m
  }

  /** `iter().rev()` over the `BTreeSet`: every phase once, greatest first. */
  function Descending(s: set<Phase>): (xs: seq<Phase>)
    ensures |xs| == |s|
    ensures forall i :: 0 <= i < |xs| ==> xs[i] in s
    ensures forall e :: e in s ==> e in xs
    ensures forall i, j :: 0 <= i < j < |xs| ==> Less(xs[j], xs[i])
    decreases |s|
  {
    if s == {} then []
    else
      var m := MaxPhase(s);
      [m] + Descending(s - {m})
  }

  /** `Iterator::find`: the position of the first element passing `pred`, or `|xs|` for none. */
  function FirstMatch(xs: seq<Phase>, pred: Phase -> bool): (i: nat)
    ensures i <= |xs|
    ensures forall j :: 0 <= j < i ==> !pred(xs[j])
    ensures i < |xs| ==> pred(xs[i])
  {
    if xs == [] then 0
    else if pred(xs[0]) then 0
    else 1 + FirstMatch(xs[1..], pred)
  }

  /** In a strictly descending list, the first element to pass `pred` is the greatest one passing it. */
  lemma FirstMatchGreatest(xs: seq<Phase>, pred: Phase -> bool)
    requires forall i, j :: 0 <= i < j < |xs| ==> Less(xs[j], xs[i])
    ensures FirstMatch(xs, pred) < |xs| <==> exists j :: 0 <= j < |xs| && pred(xs[j])
    ensures FirstMatch(xs, pred) < |xs| ==>
              forall j :: 0 <= j < |xs| && pred(xs[j]) && xs[j] != xs[FirstMatch(xs, pred)] ==>
                Less(xs[j], xs[FirstMatch(xs, pred)])
  {
    var i := FirstMatch(xs, pred);
    forall j | 0 <= j < |xs| && pred(xs[j])
      ensures i < |xs|
      ensures xs[j] != xs[i] ==> Less(xs[j], xs[i])
    {
      assert j >= i;
    }
  }

  // ---------------------------------------------------------------------
  // Lookups
  // ---------------------------------------------------------------------

  /**
    `find_rev(key, pred)`: the first phase in descending order that passes
    `pred`, i.e. the greatest one. A hit ages every recorded index by one
    and then sets the age of the query `key` to 0; the key need not be the
    input of the phase found. A miss changes nothing.
  */
  function FindRev(c: Cache, key: nat, pred: Phase -> bool): (r: (Cache, CacheResult<Phase>))
    ensures r.0.entries == c.entries
    ensures r.1.Ok? <==> exists e :: e in c.entries && pred(e)
    ensures r.1.Ok? ==> r.1.value in c.entries && pred(r.1.value)
    ensures r.1.Ok? ==> forall e :: e in c.entries && pred(e) && e != r.1.value ==> Less(e, r.1.value)
    ensures r.1.Ok? ==> r.0.usages.Keys == c.usages.Keys + {key} && r.0.usages[key] == 0
    ensures r.1.Ok? ==> forall k :: k in c.usages && k != key ==> r.0.usages[k] == c.usages[k] + 1
    ensures r.1.Err? ==> r.0 == c
  {
    var order := Descending(c.entries);
    var i := FirstMatch(order, pred);
    FirstMatchGreatest(order, pred);
    assert forall e :: e in c.entries ==> exists j :: 0 <= j < |order| && order[j] == e;
    if i < |order| then
      (Cache(c.entries, Touch(c.usages, key)), Ok(order[i]))
    else
      (c, Err(PhaseNotFound))
  }

  /** `find(key)`: a phase whose input is exactly `key`. */
  function Find(c: Cache, key: nat): (r: (Cache, CacheResult<Phase>))
    ensures r.0.entries == c.entries
    ensures r.1.Ok? <==> exists e :: e in c.entries && e.input == key
    ensures r.1.Ok? ==> r.1.value in c.entries && r.1.value.input == key
    ensures r.1.Ok? ==> forall e :: e in c.entries && e.input == key && e != r.1.value ==> Less(e, r.1.value)
    ensures r.1.Ok? ==> r.0.usages.Keys == c.usages.Keys + {key} && r.0.usages[key] == 0
    ensures r.1.Ok? ==> forall k :: k in c.usages && k != key ==> r.0.usages[k] == c.usages[k] + 1
    ensures r.1.Err? ==> r.0 == c
  {
    FindRev(c, key, (p: Phase) => p.input == key)
  }

  /**
    `find_closest(key)`: the greatest phase, in the phase order, whose input
    does not exceed `key`. Since the order looks at the window before the
    input, this need not be the phase with the largest such input.
  */
  function FindClosest(c: Cache, key: nat): (r: (Cache, CacheResult<Phase>))
    ensures r.0.entries == c.entries
    ensures r.1.Ok? <==> exists e :: e in c.entries && e.input <= key
    ensures r.1.Ok? ==> r.1.value in c.entries && r.1.value.input <= key
    ensures r.1.Ok? ==> forall e :: e in c.entries && e.input <= key && e != r.1.value ==> Less(e, r.1.value)
    ensures r.1.Ok? ==> r.0.usages.Keys == c.usages.Keys + {key} && r.0.usages[key] == 0
    ensures r.1.Ok? ==> forall k :: k in c.usages && k != key ==> r.0.usages[k] == c.usages[k] + 1
    ensures r.1.Err? ==> r.0 == c
  {
    FindRev(c, key, (p: Phase) => p.input <= key)
  }

  // ---------------------------------------------------------------------
  // Updates
  // ---------------------------------------------------------------------

  /**
    `push(entry)`: the entry's index gets age 0, the phase joins the set
    (an equal phase is not duplicated) and every other recorded index ages
    by one.
  */
  function Push(c: Cache, e: Phase): (r: Cache)
    ensures e in r.entries
    ensures forall q :: q != e ==> (q in r.entries <==> q in c.entries)
    ensures Len(r) <= Len(c) + 1
    ensures e in c.entries ==> Len(r) == Len(c)
    ensures r.usages.Keys == c.usages.Keys + {e.input}
    ensures r.usages[e.input] == 0
    ensures forall k :: k in c.usages && k != e.input ==> r.usages[k] == c.usages[k] + 1
  {
    var u := c.usages[e.input := 0];
    assert e in c.entries ==> c.entries + {e} == c.entries;
    Cache(c.entries + {e}, UpdateUsage(u, (k: nat, a: nat) => k != e.input))
  }

  /** `r` is `u` with the ages of `ks` removed and every other age as it was. */
  predicate AgesRemoved(u: map<nat, nat>, ks: set<nat>, r: map<nat, nat>)
  {
    && r.Keys == u.Keys - ks
    && forall k :: k in r ==> r[k] == u[k]
  }

  lemma HighestUsageShrinks(c: Cache, d: Cache)
    requires d.usages.Keys <= c.usages.Keys
    requires forall k :: k in d.usages ==> d.usages[k] == c.usages[k]
    ensures HighestUsage(d) <= HighestUsage(c)
  {
    if |d.usages| > 0 {
      var k :| k in d.usages && d.usages[k] == HighestUsage(d);
    }
  }

  /** The cache after removing phase `p` and its input's age. */
  function Remove(c: Cache, p: Phase): (d: Cache)
    ensures d.entries == c.entries - {p}
    ensures AgesRemoved(c.usages, {p.input}, d.usages)
    ensures HighestUsage(d) <= HighestUsage(c)
  {
    var d := Cache(c.entries - {p}, c.usages - {p.input});
    HighestUsageShrinks(c, d);
    d
  }

  /**
    `drop(key)`: look the key up with `find` (which ages the cache), then
    remove the phase found and its index's age. A miss changes nothing.
  */
  function Drop(c: Cache, key: nat): (r: (Cache, CacheResult<Phase>))
    ensures r.1.Ok? <==> exists e :: e in c.entries && e.input == key
    ensures r.1.Ok? ==> r.1.value in c.entries && r.1.value.input == key
    ensures r.1.Ok? ==> forall e :: e in c.entries && e.input == key && e != r.1.value ==> Less(e, r.1.value)
    ensures r.1.Ok? ==> r.0.entries == c.entries - {r.1.value}
    ensures r.1.Ok? ==> r.0.usages.Keys == c.usages.Keys - {key}
    ensures r.1.Ok? ==> forall k :: k in c.usages && k != key ==> r.0.usages[k] == c.usages[k] + 1
    ensures r.1.Err? ==> r.0 == c
  {
    var (u, found) := Find(c, key);
    match found
    case Ok(p) =>
      RemoveTouched(c, u, p, key);
      (Remove(u, p), found)
    case Err(_) => (u, found)
  }

  /** Removing the phase found, and its input's age, right after a lookup aged the cache. */
  lemma RemoveTouched(c: Cache, u: Cache, p: Phase, key: nat)
    requires u.entries == c.entries && p.input == key
    requires u.usages.Keys == c.usages.Keys + {key}
    requires forall k :: k in c.usages && k != key ==> u.usages[k] == c.usages[k] + 1
    ensures Remove(u, p).entries == c.entries - {p}
    ensures Remove(u, p).usages.Keys == c.usages.Keys - {key}
    ensures forall k :: k in c.usages && k != key ==> Remove(u, p).usages[k] == c.usages[k] + 1
  {
  }

  // ---------------------------------------------------------------------
  // The sweep
  // ---------------------------------------------------------------------

  /**
    Outcome of `drop_invalid`: the swept cache and the removed phases in the
    order they were removed, or the panic of `expect("usage count")` when a
    visited phase whose predicate holds has no recorded age.
  */
  datatype SweepResult = Swept(cache: Cache, dropped: seq<Phase>) | MissingUsage(input: nat)

  /** The inputs of a list of phases. */
  function Inputs(ps: seq<Phase>): set<nat>
  {
    set i | 0 <= i < |ps| :: ps[i].input
  }

  /** The inputs of a sequence are the inputs of its elements. */
  lemma InputsOfElements(ps: seq<Phase>)
    ensures Inputs(ps) == set p | p in ps :: p.input
  {
    forall x | x in (set p | p in ps :: p.input)
      ensures x in Inputs(ps)
    {
      var p :| p in ps && p.input == x;
      var i :| 0 <= i < |ps| && ps[i] == p;
    }
  }

  lemma InputsCons(p: Phase, ps: seq<Phase>)
    ensures Inputs([p] + ps) == {p.input} + Inputs(ps)
  {
    var xs := [p] + ps;
    forall k | k in Inputs(xs)
      ensures k in {p.input} + Inputs(ps)
    {
      var i :| 0 <= i < |xs| && xs[i].input == k;
      if i > 0 {
        assert ps[i - 1].input == k;
      }
    }
    forall k | k in Inputs(ps)
      ensures k in Inputs(xs)
    {
      var i :| 0 <= i < |ps| && ps[i].input == k;
      assert xs[i + 1].input == k;
    }
    assert xs[0].input == p.input;
  }

  /** No two phases of the list share an input. */
  predicate DistinctInputs(ps: seq<Phase>)
  {
    forall i, j :: 0 <= i < j < |ps| ==> ps[i].input != ps[j].input
  }

  /** The list is strictly decreasing in the phase order. */
  predicate Descends(ps: seq<Phase>)
  {
    forall i, j :: 0 <= i < j < |ps| ==> Less(ps[j], ps[i])
  }

  /**
    The loop of `drop_invalid` over the phases still to visit, in order.
    A phase is kept when `pred` holds and its age is below the highest age
    of the cache as it stands at that moment; otherwise the phase and its
    input's age are removed, which can lower the highest age seen by the
    phases visited after it.
  */
  function Sweep(c: Cache, todo: seq<Phase>, pred: Phase -> bool): SweepResult
    decreases |todo|
  {
    if todo == [] then Swept(c, [])
    else
      var p := todo[0];
      if pred(p) && p.input !in c.usages then MissingUsage(p.input)
      else if pred(p) && ValidUsage(c, p.input) then Sweep(c, todo[1..], pred)
      else
        match Sweep(Remove(c, p), todo[1..], pred)
        case Swept(d, ds) => Swept(d, [p] + ds)
        case MissingUsage(i) => MissingUsage(i)
  }

  /** A completed sweep removes phases it visited, and exactly those phases. */
  lemma {:induction false} SweepRemoves(c: Cache, todo: seq<Phase>, pred: Phase -> bool)
    ensures var r := Sweep(c, todo, pred);
      r.Swept? ==>
        && (forall d :: d in r.dropped ==> d in todo)
        && r.cache.entries == c.entries - (set d | d in r.dropped)
    decreases |todo|
  {
    if todo != [] {
      var p := todo[0];
      if pred(p) && p.input !in c.usages {
      } else if pred(p) && ValidUsage(c, p.input) {
        SweepRemoves(c, todo[1..], pred);
      } else {
        SweepRemoves(Remove(c, p), todo[1..], pred);
        var r := Sweep(Remove(c, p), todo[1..], pred);
        if r.Swept? {
          assert (set d | d in [p] + r.dropped) == {p} + (set d | d in r.dropped);
        }
      }
    }
  }

  /** A completed sweep removes the ages of the removed phases' inputs and keeps every other age. */
  lemma {:induction false} SweepRemovesAges(c: Cache, todo: seq<Phase>, pred: Phase -> bool)
    ensures var r := Sweep(c, todo, pred);
      r.Swept? ==> AgesRemoved(c.usages, Inputs(r.dropped), r.cache.usages)
    decreases |todo|
  {
    if todo != [] {
      var p := todo[0];
      if pred(p) && p.input !in c.usages {
      } else if pred(p) && ValidUsage(c, p.input) {
        SweepRemovesAges(c, todo[1..], pred);
      } else {
        SweepRemovesAges(Remove(c, p), todo[1..], pred);
        var r := Sweep(Remove(c, p), todo[1..], pred);
        if r.Swept? {
          InputsCons(p, r.dropped);
        }
      }
    }
  }

  /**
    A phase the sweep keeps passes `pred` and has an age below the highest
    age of the cache the sweep started from.
  */
  lemma {:induction false} SweepKeeps(c: Cache, todo: seq<Phase>, pred: Phase -> bool)
    ensures var r := Sweep(c, todo, pred);
      r.Swept? ==> forall p :: p in todo && p !in r.dropped ==>
        pred(p) && p.input in c.usages && c.usages[p.input] < HighestUsage(c)
    decreases |todo|
  {
    if todo != [] {
      var p := todo[0];
      if pred(p) && p.input !in c.usages {
      } else if pred(p) && ValidUsage(c, p.input) {
        SweepKeeps(c, todo[1..], pred);
      } else {
        SweepKeeps(Remove(c, p), todo[1..], pred);
      }
    }
  }

  /**
    A visited phase whose age is missing or at least the starting highest
    age is removed: in particular every phase holding the highest age.
  */
  lemma {:induction false} SweepDropsOldest(c: Cache, todo: seq<Phase>, pred: Phase -> bool)
    ensures var r := Sweep(c, todo, pred);
      r.Swept? ==> forall p :: p in todo && (p.input !in c.usages || c.usages[p.input] >= HighestUsage(c)) ==>
        p in r.dropped
    decreases |todo|
  {
    if todo != [] {
      var p := todo[0];
      if pred(p) && p.input !in c.usages {
      } else if pred(p) && ValidUsage(c, p.input) {
        SweepDropsOldest(c, todo[1..], pred);
      } else {
        SweepDropsOldest(Remove(c, p), todo[1..], pred);
      }
    }
  }

  /**
    A visited phase that passes `pred` but has no age makes the sweep panic:
    whatever happens to the phases before it, its input is still missing when
    the sweep reaches it, and `valid_usage` reads that age with `expect`.
  */
  lemma {:induction false} SweepPanics(c: Cache, todo: seq<Phase>, pred: Phase -> bool, i: nat)
    requires i < |todo| && pred(todo[i]) && todo[i].input !in c.usages
    ensures Sweep(c, todo, pred).MissingUsage?
    decreases |todo|
  {
    var p := todo[0];
    if pred(p) && p.input !in c.usages {
    } else if pred(p) && ValidUsage(c, p.input) {
      SweepPanics(c, todo[1..], pred, i - 1);
    } else {
      SweepPanics(Remove(c, p), todo[1..], pred, i - 1);
    }
  }

  /** With every visited input aged and no input visited twice, the `expect` never fires. */
  lemma {:induction false} SweepNoPanic(c: Cache, todo: seq<Phase>, pred: Phase -> bool)
    requires forall i :: 0 <= i < |todo| ==> todo[i].input in c.usages
    requires DistinctInputs(todo)
    ensures Sweep(c, todo, pred).Swept?
    decreases |todo|
  {
    if todo != [] {
      var p := todo[0];
      if pred(p) && ValidUsage(c, p.input) {
        SweepNoPanic(c, todo[1..], pred);
      } else {
        SweepNoPanic(Remove(c, p), todo[1..], pred);
      }
    }
  }

  /** Putting a phase in front of a descending list of smaller phases keeps it descending. */
  lemma DescendsCons(p: Phase, ds: seq<Phase>, rest: seq<Phase>)
    requires Descends([p] + rest)
    requires Descends(ds)
    requires forall d :: d in ds ==> d in rest
    ensures Descends([p] + ds)
  {
    var xs := [p] + ds;
    var ys := [p] + rest;
    forall i, j | 0 <= i < j < |xs|
      ensures Less(xs[j], xs[i])
    {
      if i == 0 {
        assert ds[j - 1] in ds;
        var k :| 0 <= k < |rest| && rest[k] == ds[j - 1];
        assert ys[k + 1] == xs[j] && ys[0] == xs[0];
      } else {
        assert xs[j] == ds[j - 1] && xs[i] == ds[i - 1];
      }
    }
  }

  /** The removed phases come out in the order visited. */
  lemma {:induction false} SweepDropsInOrder(c: Cache, todo: seq<Phase>, pred: Phase -> bool)
    requires Descends(todo)
    ensures var r := Sweep(c, todo, pred); r.Swept? ==> Descends(r.dropped)
    decreases |todo|
  {
    if todo != [] {
      var p := todo[0];
      var rest := todo[1..];
      assert Descends(rest) by {
        forall i, j | 0 <= i < j < |rest|
          ensures Less(rest[j], rest[i])
        {
          assert rest[j] == todo[j + 1] && rest[i] == todo[i + 1];
        }
      }
      if pred(p) && p.input !in c.usages {
      } else if pred(p) && ValidUsage(c, p.input) {
        SweepDropsInOrder(c, rest, pred);
      } else {
        SweepDropsInOrder(Remove(c, p), rest, pred);
        SweepRemoves(Remove(c, p), rest, pred);
        var r := Sweep(Remove(c, p), rest, pred);
        if r.Swept? {
          assert todo == [p] + rest;
          DescendsCons(p, r.dropped, rest);
        }
      }
    }
  }

  /**
    The inputs of the phases among the first `i` of `order` that are not in
    `kept`: the ages a sweep along `order` has deleted by the time it visits
    `order[i]`.
  */
  function GoneBefore(order: seq<Phase>, kept: set<Phase>, i: nat): set<nat>
    requires i <= |order|
  {
    set j | 0 <= j < i && order[j] !in kept :: order[j].input
  }

  /**
    The test of `drop_invalid` on a visited phase `p`, given the inputs
    `gone` whose ages the sweep has already deleted: `pred(p)` holds and
    some age still on record is greater than `p`'s, i.e. `p`'s age is below
    the running highest age.
  */
  ghost predicate KeptBySweep(u: map<nat, nat>, p: Phase, gone: set<nat>, pred: Phase -> bool)
  {
    && pred(p)
    && p.input in u
    && exists k :: k in u && k !in gone && u[p.input] < u[k]
  }

  lemma GoneBeforeCons(order: seq<Phase>, kept: set<Phase>, i: nat)
    requires 0 < i <= |order|
    ensures GoneBefore(order, kept, i)
         == (if order[0] in kept then {} else {order[0].input}) + GoneBefore(order[1..], kept, i - 1)
  {
    var rest := order[1..];
    var head: set<nat> := if order[0] in kept then {} else {order[0].input};
    forall x | x in GoneBefore(order, kept, i)
      ensures x in head + GoneBefore(rest, kept, i - 1)
    {
      var j :| 0 <= j < i && order[j] !in kept && order[j].input == x;
      if j > 0 {
        assert rest[j - 1] == order[j];
      }
    }
    forall x | x in GoneBefore(rest, kept, i - 1)
      ensures x in GoneBefore(order, kept, i)
    {
      var j :| 0 <= j < i - 1 && rest[j] !in kept && rest[j].input == x;
      assert order[j + 1] == rest[j];
    }
  }

  /**
    The exact rule of the sweep: with every visited phase cached and aged
    and no input visited twice, the sweep completes and keeps the `i`-th
    visited phase if and only if it passes the test of `drop_invalid`
    against the ages still on record when it is visited.
  */
  lemma {:induction false} SweepRule(c: Cache, todo: seq<Phase>, pred: Phase -> bool, i: nat)
    requires forall j :: 0 <= j < |todo| ==> todo[j] in c.entries && todo[j].input in c.usages
    requires DistinctInputs(todo)
    requires i < |todo|
    ensures var r := Sweep(c, todo, pred);
      && r.Swept?
      && (todo[i] in r.cache.entries <==>
            KeptBySweep(c.usages, todo[i], GoneBefore(todo, r.cache.entries, i), pred))
    decreases |todo|, 1
  {
    if pred(todo[0]) && ValidUsage(c, todo[0].input) {
      SweepRuleKept(c, todo, pred, i);
    } else {
      SweepRuleDropped(c, todo, pred, i);
    }
  }

  /** `SweepRule` when the first visited phase is kept. */
  lemma {:induction false} SweepRuleKept(c: Cache, todo: seq<Phase>, pred: Phase -> bool, i: nat)
    requires forall j :: 0 <= j < |todo| ==> todo[j] in c.entries && todo[j].input in c.usages
    requires DistinctInputs(todo)
    requires i < |todo|
    requires pred(todo[0]) && ValidUsage(c, todo[0].input)
    ensures var r := Sweep(c, todo, pred);
      && r.Swept?
      && (todo[i] in r.cache.entries <==>
            KeptBySweep(c.usages, todo[i], GoneBefore(todo, r.cache.entries, i), pred))
    decreases |todo|, 0
  {
    var p := todo[0];
    var rest := todo[1..];
    SweepNoPanic(c, todo, pred);
    var r := Sweep(c, todo, pred);
    assert r == Sweep(c, rest, pred);
    SweepRemoves(c, rest, pred);
    assert p in r.cache.entries by {
      forall d | d in r.dropped
        ensures d != p
      {
        var j :| 0 <= j < |rest| && rest[j] == d;
        assert rest[j] == todo[j + 1];
      }
    }
    if i > 0 {
      assert forall j :: 0 <= j < |rest| ==> rest[j] == todo[j + 1];
      SweepRule(c, rest, pred, i - 1);
      GoneBeforeCons(todo, r.cache.entries, i);
    }
  }

  /** `SweepRule` when the first visited phase is removed. */
  lemma {:induction false} SweepRuleDropped(c: Cache, todo: seq<Phase>, pred: Phase -> bool, i: nat)
    requires forall j :: 0 <= j < |todo| ==> todo[j] in c.entries && todo[j].input in c.usages
    requires DistinctInputs(todo)
    requires i < |todo|
    requires !(pred(todo[0]) && ValidUsage(c, todo[0].input))
    ensures var r := Sweep(c, todo, pred);
      && r.Swept?
      && (todo[i] in r.cache.entries <==>
            KeptBySweep(c.usages, todo[i], GoneBefore(todo, r.cache.entries, i), pred))
    decreases |todo|, 0
  {
    var p := todo[0];
    var rest := todo[1..];
    var c' := Remove(c, p);
    SweepNoPanic(c, todo, pred);
    var r := Sweep(c, todo, pred);
    SweepRemoves(c', rest, pred);
    assert r.cache == Sweep(c', rest, pred).cache;
    assert p !in r.cache.entries;
    if i > 0 {
      forall j | 0 <= j < |rest|
        ensures rest[j] in c'.entries && rest[j].input in c'.usages
      {
        assert rest[j] == todo[j + 1];
      }
      SweepRule(c', rest, pred, i - 1);
      GoneBeforeCons(todo, r.cache.entries, i);
      SweepRuleDroppedAges(c, p, todo[i], GoneBefore(rest, r.cache.entries, i - 1), pred);
    }
  }

  /** Deleting `p`'s age and counting `p.input` as gone leave the sweep's test unchanged. */
  lemma SweepRuleDroppedAges(c: Cache, p: Phase, q: Phase, gone': set<nat>, pred: Phase -> bool)
    requires q.input != p.input
    ensures KeptBySweep(Remove(c, p).usages, q, gone', pred)
        <==> KeptBySweep(c.usages, q, {p.input} + gone', pred)
  {
    var u' := Remove(c, p).usages;
    if KeptBySweep(c.usages, q, {p.input} + gone', pred) {
      var k :| k in c.usages && k !in {p.input} + gone' && c.usages[q.input] < c.usages[k];
      assert k in u';
    }
    if KeptBySweep(u', q, gone', pred) {
      var k :| k in u' && k !in gone' && u'[q.input] < u'[k];
      assert k in c.usages && k !in {p.input} + gone';
    }
  }

  /** The sweep facts, for a visiting order that lists exactly the cached phases, greatest first. */
  lemma SweepOverAll(c: Cache, order: seq<Phase>, pred: Phase -> bool)
    requires forall i :: 0 <= i < |order| ==> order[i] in c.entries
    requires forall e :: e in c.entries ==> e in order
    requires Descends(order)
    ensures var r := Sweep(c, order, pred);
      r.Swept? ==>
        && r.cache.entries <= c.entries
        && (set d | d in r.dropped) == c.entries - r.cache.entries
        && Descends(r.dropped)
        && AgesRemoved(c.usages, Inputs(r.dropped), r.cache.usages)
        && (forall p :: p in r.cache.entries ==>
              pred(p) && p.input in c.usages && c.usages[p.input] < HighestUsage(c))
        && (forall p :: p in c.entries && p.input in c.usages && c.usages[p.input] == HighestUsage(c) ==>
              p !in r.cache.entries)
  {
    var r := Sweep(c, order, pred);
    SweepRemoves(c, order, pred);
    SweepRemovesAges(c, order, pred);
    SweepKeeps(c, order, pred);
    SweepDropsOldest(c, order, pred);
    SweepDropsInOrder(c, order, pred);
    if r.Swept? {
      var gone := set d | d in r.dropped;
      assert gone <= c.entries by {
        forall d | d in gone
          ensures d in c.entries
        {
          assert d in order;
        }
      }
      assert gone == c.entries - r.cache.entries;
      forall p | p in r.cache.entries
        ensures pred(p) && p.input in c.usages && c.usages[p.input] < HighestUsage(c)
      {
        assert p in order && p !in r.dropped;
      }
      forall p | p in c.entries && p.input in c.usages && c.usages[p.input] == HighestUsage(c)
        ensures p !in r.cache.entries
      {
        assert p in order;
      }
    }
  }

  /** On a well-aged cache the sweep over every phase cannot panic and leaves the cache well aged. */
  lemma SweepOverAllWellAged(c: Cache, order: seq<Phase>, pred: Phase -> bool)
    requires forall i :: 0 <= i < |order| ==> order[i] in c.entries
    requires forall e :: e in c.entries ==> e in order
    requires Descends(order)
    requires WellAged(c)
    ensures Sweep(c, order, pred).Swept? && WellAged(Sweep(c, order, pred).cache)
  {
    forall i, j | 0 <= i < j < |order|
      ensures order[i].input != order[j].input
    {
      LessStrictTotal(order[j], order[i], order[j]);
    }
    SweepNoPanic(c, order, pred);
    SweepRemoves(c, order, pred);
    SweepRemovesAges(c, order, pred);
    var r := Sweep(c, order, pred);
    forall p | p in r.cache.entries
      ensures p.input in r.cache.usages
    {
      forall i | 0 <= i < |r.dropped|
        ensures r.dropped[i].input != p.input
      {
        assert r.dropped[i] in order;
      }
    }
  }

  /** On a well-aged cache, every phase of the visiting order is kept or removed by the sweep's exact rule. */
  lemma SweepOverAllRule(c: Cache, order: seq<Phase>, pred: Phase -> bool)
    requires forall i :: 0 <= i < |order| ==> order[i] in c.entries
    requires Descends(order)
    requires WellAged(c)
    ensures var r := Sweep(c, order, pred);
      && r.Swept?
      && forall i :: 0 <= i < |order| ==>
           (order[i] in r.cache.entries <==>
              KeptBySweep(c.usages, order[i], GoneBefore(order, r.cache.entries, i), pred))
  {
    forall i, j | 0 <= i < j < |order|
      ensures order[i].input != order[j].input
    {
      LessStrictTotal(order[j], order[i], order[j]);
    }
    SweepNoPanic(c, order, pred);
    forall i | 0 <= i < |order|
      ensures var r := Sweep(c, order, pred);
        order[i] in r.cache.entries <==>
          KeptBySweep(c.usages, order[i], GoneBefore(order, r.cache.entries, i), pred)
    {
      SweepRule(c, order, pred, i);
    }
  }

  /**
    `drop_invalid(pred)`: sweep every phase, greatest first. The removed
    phases and the remaining ones partition the original set; each removed
    phase's input loses its age and no other age changes; every kept phase
    passes `pred` with an age below the original highest; every phase that
    held the highest age is removed. The `expect` fires whenever some phase
    passing `pred` has no age. On a well-aged cache the `expect` cannot fire,
    the result is well aged again, and each phase is kept exactly when `pred`
    holds and its age is below that of some index still on record when the
    sweep reaches it.
  */
  function DropInvalid(c: Cache, pred: Phase -> bool): (r: SweepResult)
    ensures r.Swept? ==> r.cache.entries <= c.entries
    ensures r.Swept? ==> (set d | d in r.dropped) == c.entries - r.cache.entries
    ensures r.Swept? ==> Descends(r.dropped)
    ensures r.Swept? ==> AgesRemoved(c.usages, Inputs(r.dropped), r.cache.usages)
    ensures r.Swept? ==> forall p :: p in r.cache.entries ==>
              pred(p) && p.input in c.usages && c.usages[p.input] < HighestUsage(c)
    ensures r.Swept? ==> forall p :: p in c.entries && p.input in c.usages && c.usages[p.input] == HighestUsage(c) ==>
              p !in r.cache.entries
    ensures WellAged(c) ==> r.Swept? && WellAged(r.cache)
    ensures (exists p :: p in c.entries && pred(p) && p.input !in c.usages) ==> r.MissingUsage?
    ensures WellAged(c) ==>
      (&& r.Swept?
       && var order := Descending(c.entries);
          forall i :: 0 <= i < |order| ==>
            (order[i] in r.cache.entries <==>
               KeptBySweep(c.usages, order[i], GoneBefore(order, r.cache.entries, i), pred)))
  {
    var order := Descending(c.entries);
    SweepOverAll(c, order, pred);
    if WellAged(c) then
      SweepOverAllWellAged(c, order, pred);
      SweepOverAllRule(c, order, pred);
      Sweep(c, order, pred)
    else if exists p :: p in c.entries && pred(p) && p.input !in c.usages then
      var p :| p in c.entries && pred(p) && p.input !in c.usages;
      var i :| 0 <= i < |order| && order[i] == p;
      SweepPanics(c, order, pred, i);
      Sweep(c, order, pred)
    else
      Sweep(c, order, pred)
  }
}

=== FILE: calculators.dfy ===
/**
  The two integer recurrences: `FibonacciMachine`/`PrimesMachine` in
  src/machines.rs and their verbatim copies `Fibonacci`/`Primes` in
  src/calculators.rs. A recurrence advances a phase to a target index by
  applying its step once per index in between; `Calculate` is the
  `calculate(n, phase)` both traits declare.
*/
module Calculators {
  import opened Phases
  import opened Primality

  /** The recurrence a machine runs; the trait implementations become constructors. */
  datatype Recurrence = Fibonacci | Primes

  /** `cmp::max`. */
  function Max(a: nat, b: nat): (m: nat)
    ensures m >= a && m >= b && (m == a || m == b)
  {
    if a >= b then a else b
  }

  /**
    The phases a step is defined on. The Fibonacci step is total; the
    primes step calls `next_prime` on slot 0, which loops forever on an
    even number of at least 4.
  */
  predicate Steppable(rec: Recurrence, p: Phase)
  {
    rec.Primes? ==> p.slots[0] <= 2 || p.slots[0] % 2 == 1
  }

  /** One iteration of the Fibonacci loop: `rotate(1)`, then `phase[0] = max(1, phase[1] + phase[2])`. */
  function FibonacciStep(p: Phase): (q: Phase)
    ensures Input(q) == Input(p)
  {
    var r := Rotate(p, 1);
    Set(r, 0, Max(1, At(r, 1) + At(r, 2)))
  }

  /** The Fibonacci step shifts the window right and puts the sum of the old first two slots (at least 1) in front. */
  lemma FibonacciStepSlots(p: Phase)
    ensures FibonacciStep(p).slots == [Max(1, p.slots[0] + p.slots[1]), p.slots[0], p.slots[1]]
  {
    RotateOne(p);
  }

  /** One iteration of the primes loop: `phase[0] = next_prime(phase[0])`. */
  function PrimesStep(p: Phase): (q: Phase)
    requires Steppable(Primes, p)
    ensures Input(q) == Input(p)
    ensures Steppable(Primes, q)
  {
    Set(p, 0, NextPrime(At(p, 0)))
  }

  /** The primes step replaces slot 0 by the next prime and leaves the other slots alone. */
  lemma PrimesStepSlots(p: Phase)
    requires Steppable(Primes, p)
    ensures PrimesStep(p).slots == [NextPrime(p.slots[0]), p.slots[1], p.slots[2]]
  {
  }

  function Step(rec: Recurrence, p: Phase): (q: Phase)
    requires Steppable(rec, p)
    ensures Input(q) == Input(p) && Steppable(rec, q)
  {
    match rec
    case Fibonacci => FibonacciStep(p)
    case Primes => PrimesStep(p)
  }

  /** The loop body applied `k` times. The step never reads or writes the input. */
  function Advance(rec: Recurrence, p: Phase, k: nat): (q: Phase)
    requires Steppable(rec, p)
    ensures Input(q) == Input(p) && Steppable(rec, q)
    decreases k
  {
    if k == 0 then p else Advance(rec, Step(rec, p), k - 1)
  }

  /** Number of loop iterations of `for _ in start..stahp`: none when the range is empty. */
  function Steps(start: nat, stop: nat): nat
  {
    if start < stop then stop - start else 0
  }

  /**
    `calculate(n, phase)`: record `n` as the input, then run the step once
    for every index from the phase's old input up to `n`. A phase already at
    or past `n` is only relabelled. `MachineError` has no values, so the
    source's `Ok` wrapper is dropped.
  */
  function Calculate(rec: Recurrence, n: nat, p: Phase): (q: Phase)
    requires Steppable(rec, p)
    ensures Input(q) == n && Steppable(rec, q)
    ensures n <= Input(p) ==> q == SetInput(p, n)
  {
    var start := Input(p);
    Advance(rec, SetInput(p, n), Steps(start, n))
  }

  // ---------------------------------------------------------------------
  // Resumption
  // ---------------------------------------------------------------------

  lemma {:induction false} AdvanceAdd(rec: Recurrence, p: Phase, a: nat, b: nat)
    requires Steppable(rec, p)
    ensures Advance(rec, Advance(rec, p, a), b) == Advance(rec, p, a + b)
    decreases a
  {
    if a == 0 {
      assert Advance(rec, p, a) == p;
    } else {
      var q := Step(rec, p);
      AdvanceAdd(rec, q, a - 1, b);
      assert Advance(rec, p, a) == Advance(rec, q, a - 1);
      assert Advance(rec, p, a + b) == Advance(rec, q, a - 1 + b);
    }
  }

  /** The last of `k + 1` iterations is one step applied to the result of the first `k`. */
  lemma AdvanceLast(rec: Recurrence, p: Phase, k: nat)
    requires Steppable(rec, p)
    ensures Advance(rec, p, k + 1) == Step(rec, Advance(rec, p, k))
  {
    AdvanceAdd(rec, p, k, 1);
  }

  lemma StepSetInput(rec: Recurrence, p: Phase, n: nat)
    requires Steppable(rec, p)
    ensures Step(rec, SetInput(p, n)) == SetInput(Step(rec, p), n)
  {
    assert SetInput(p, n).slots == p.slots;
  }

  /** The steps only touch the window, so relabelling commutes with advancing. */
  lemma {:induction false} AdvanceSetInput(rec: Recurrence, p: Phase, n: nat, k: nat)
    requires Steppable(rec, p)
    ensures Advance(rec, SetInput(p, n), k) == SetInput(Advance(rec, p, k), n)
    decreases k
  {
    if k > 0 {
      StepSetInput(rec, p, n);
      AdvanceSetInput(rec, Step(rec, p), n, k - 1);
    }
  }

  /** `calculate` advances the window by the number of indices crossed and then relabels it. */
  lemma CalculateRelabels(rec: Recurrence, p: Phase, n: nat)
    requires Steppable(rec, p)
    ensures Calculate(rec, n, p) == SetInput(Advance(rec, p, Steps(Input(p), n)), n)
  {
    AdvanceSetInput(rec, p, n, Steps(Input(p), n));
  }

  /** Calculating to `m` and then to `n` is `n - m` further steps from the phase reached at `m`. */
  lemma CalculateTwice(rec: Recurrence, p: Phase, m: nat, n: nat)
    requires Steppable(rec, p)
    requires Input(p) <= m <= n
    ensures Calculate(rec, n, Calculate(rec, m, p))
         == SetInput(Advance(rec, Advance(rec, p, m - Input(p)), n - m), n)
  {
    var x := Advance(rec, p, m - Input(p));
    CalculateRelabels(rec, p, m);
    CalculateRelabels(rec, SetInput(x, m), n);
    AdvanceSetInput(rec, x, m, n - m);
  }

  /**
    Resuming from an intermediate result is the same as computing in one go:
    advancing a phase to `m` and then to `n` gives what advancing it straight
    to `n` gives, for `Input(p) <= m <= n`.
  */
  lemma Resumption(rec: Recurrence, p: Phase, m: nat, n: nat)
    requires Steppable(rec, p)
    requires Input(p) <= m <= n
    ensures Calculate(rec, n, Calculate(rec, m, p)) == Calculate(rec, n, p)
  {
    CalculateTwice(rec, p, m, n);
    AdvanceAdd(rec, p, m - Input(p), n - m);
    CalculateRelabels(rec, p, n);
  }

  /** The phase a recurrence reaches at `n` starting from `Phase::new()`. */
  function FromZero(rec: Recurrence, n: nat): (p: Phase)
    ensures Input(p) == n && Steppable(rec, p)
  {
    Calculate(rec, n, Zero())
  }

  /**
    A phase computed from zero, advanced further, is the phase computed from
    zero at the later index: the fact that lets the cache resume.
  */
  lemma ResumeFromZero(rec: Recurrence, m: nat, n: nat)
    requires m <= n
    ensures Calculate(rec, n, FromZero(rec, m)) == FromZero(rec, n)
  {
    Resumption(rec, Zero(), m, n);
  }

  // ---------------------------------------------------------------------
  // Fibonacci
  // ---------------------------------------------------------------------

  /** Reference Fibonacci numbers, F(0) = 0 and F(1) = 1. */
  function Fib(n: nat): nat
  {
    if n == 0 then 0 else if n == 1 then 1 else Fib(n - 1) + Fib(n - 2)
  }

  lemma {:induction false} FibPositive(n: nat)
    requires n >= 1
    ensures Fib(n) >= 1
  {
    if n > 2 {
      FibPositive(n - 1);
    }
  }

  /**
    From zero, the Fibonacci window at `n` holds F(n), F(n-1), F(n-2), with
    0 in the slots that lie before index 0. The `max(1, ...)` only matters
    on the first step, where it turns 0 + 0 into F(1) = 1.
  */
  lemma {:induction false} FibonacciWindow(n: nat)
    ensures Advance(Fibonacci, Zero(), n).slots
         == [Fib(n), if n >= 1 then Fib(n - 1) else 0, if n >= 2 then Fib(n - 2) else 0]
  {
    if n > 0 {
      FibonacciWindow(n - 1);
      AdvanceLast(Fibonacci, Zero(), n - 1);
      FibonacciStepSlots(Advance(Fibonacci, Zero(), n - 1));
      if n >= 2 {
        FibPositive(n - 1);
      }
    }
  }

  /** The Fibonacci machine's result at `n`, from zero, is F(n). */
  lemma FibonacciResult(n: nat)
    ensures Result(FromZero(Fibonacci, n)) == Fib(n)
  {
    AdvanceSetInput(Fibonacci, Zero(), n, n);
    FibonacciWindow(n);
  }

  /** After at least one step the head slot is at least 1, whatever the phase held. */
  lemma FibonacciHeadPositive(p: Phase, k: nat)
    requires k >= 1
    ensures Result(Advance(Fibonacci, p, k)) >= 1
  {
    AdvanceLast(Fibonacci, p, k - 1);
    FibonacciStepSlots(Advance(Fibonacci, p, k - 1));
  }

  // ---------------------------------------------------------------------
  // Primes
  // ---------------------------------------------------------------------

  /** The number of primes in `[1, x]`. */
  function PrimeCount(x: nat): nat
  {
    if x == 0 then 0 else PrimeCount(x - 1) + (if Prime(x) then 1 else 0)
  }

  /** `next_prime` of a prime is the prime with the next count. */
  lemma NextPrimeCount(v: nat)
    requires v <= 2 || v % 2 == 1
    ensures PrimeCount(NextPrime(v)) == PrimeCount(v) + 1
  {
    var r := NextPrime(v);
    NextPrimeSpec(v);
    var k := v;
    while k + 1 < r
      invariant v <= k < r
      invariant PrimeCount(k) == PrimeCount(v)
      decreases r - k
    {
      k := k + 1;
    }
  }

  /** The primes machine only ever changes slot 0. */
  lemma {:induction false} PrimesTail(p: Phase, k: nat)
    requires Steppable(Primes, p)
    ensures Advance(Primes, p, k).slots[1..] == p.slots[1..]
    decreases k
  {
    if k > 0 {
      PrimesStepSlots(p);
      PrimesTail(Step(Primes, p), k - 1);
    }
  }

  /**
    From zero, the primes result at `n >= 1` is the `n`-th prime: a prime
    with exactly `n` primes up to and including it. At `n = 0` it is 0.
  */
  lemma {:induction false} PrimesNth(n: nat)
    ensures n == 0 ==> Result(Advance(Primes, Zero(), n)) == 0
    ensures n >= 1 ==> Prime(Result(Advance(Primes, Zero(), n)))
    ensures PrimeCount(Result(Advance(Primes, Zero(), n))) == n
  {
    if n > 0 {
      PrimesNth(n - 1);
      AdvanceLast(Primes, Zero(), n - 1);
      PrimesStepSlots(Advance(Primes, Zero(), n - 1));
      NextPrimeCount(Result(Advance(Primes, Zero(), n - 1)));
    }
  }

  /** The same statement about the primes machine's result at `n`. */
  lemma PrimesResult(n: nat)
    ensures n >= 1 ==> Prime(Result(FromZero(Primes, n)))
    ensures PrimeCount(Result(FromZero(Primes, n))) == n
  {
    AdvanceSetInput(Primes, Zero(), n, n);
    PrimesNth(n);
  }
}

=== FILE: doctests.dfy ===
/**
  The concrete values the source's documentation examples assert: the
  26th Fibonacci number and the 26th prime through `lru_calculate` on a
  fresh machine with caps 128 and 50, and the `is_prime`/`next_prime`
  examples.
*/
module DocTests {
  import opened Phases
  import opened Primality
  import opened Calculators
  import opened Caches
  import opened Machines

  /** `is_prime(98) == false`, `is_prime(144) == false`, `is_prime(181) == true`. */
  lemma IsPrimeExamples()
    ensures !IsPrime(98) && !IsPrime(144) && IsPrime(181)
    ensures !Prime(98) && !Prime(144) && Prime(181)
  {
    IsPrimeCorrect(98);
    IsPrimeCorrect(144);
    IsPrimeCorrect(181);
  }

  /** No number in `[lo, hi)` passes `is_prime`; decidable by evaluation on literals. */
  function NoPrimeIn(lo: nat, hi: nat): bool
    decreases hi - lo
  {
    lo >= hi || (!IsPrime(lo) && NoPrimeIn(lo + 1, hi))
  }

  lemma {:induction false} NoPrimeInSound(lo: nat, hi: nat)
    requires NoPrimeIn(lo, hi)
    ensures forall k :: lo <= k < hi ==> !Prime(k)
    decreases hi - lo
  {
    if lo < hi {
      IsPrimeCorrect(lo);
      NoPrimeInSound(lo + 1, hi);
    }
  }

  /** `next_prime(n) == p` whenever `p` is prime and nothing in between is. */
  lemma NextPrimeIs(n: nat, p: nat)
    requires n <= 2 || n % 2 == 1
    requires n < p && IsPrime(p)
    requires NoPrimeIn(n + 1, p)
    ensures NextPrime(n) == p
  {
    var r := NextPrime(n);
    NextPrimeSpec(n);
    IsPrimeCorrect(p);
    NoPrimeInSound(n + 1, p);
  }

  /** `next_prime(3517) == 3527` and `next_prime(7489) == 7499`. */
  lemma NextPrimeExamples()
    ensures NextPrime(3517) == 3527
    ensures NextPrime(7489) == 7499
  {
    assert IsPrime(3527);
    assert NoPrimeIn(3518, 3527);
    NextPrimeIs(3517, 3527);
    assert TrialFrom(7499, 77) && TrialFrom(7499, 59) && TrialFrom(7499, 41) && TrialFrom(7499, 23);
    assert IsPrime(7499);
    assert NoPrimeIn(7490, 7499);
    NextPrimeIs(7489, 7499);
  }

  lemma FibonacciTwentySix()
    ensures Fib(26) == 121393
  {
    assert Fib(2) == 1 && Fib(3) == 2 && Fib(4) == 3 && Fib(5) == 5;
    assert Fib(6) == 8 && Fib(7) == 13 && Fib(8) == 21 && Fib(9) == 34;
    assert Fib(10) == 55 && Fib(11) == 89 && Fib(12) == 144 && Fib(13) == 233;
    assert Fib(14) == 377 && Fib(15) == 610 && Fib(16) == 987 && Fib(17) == 1597;
    assert Fib(18) == 2584 && Fib(19) == 4181 && Fib(20) == 6765 && Fib(21) == 10946;
    assert Fib(22) == 17711 && Fib(23) == 28657 && Fib(24) == 46368 && Fib(25) == 75025;
  }

  /** `lru_calculate(Machine::new(FibonacciMachine{}, 128, 50), 26) == 121393`. */
  lemma FibonacciExample()
    ensures var r := LruCalculate(New(Fibonacci, 128, 50), 26);
      r.Done? && r.value.1 == 121393
  {
    var m := New(Fibonacci, 128, 50);
    NewValid(Fibonacci, 128, 50);
    LruCalculateCorrect(m, 26);
    FibonacciTwentySix();
  }

  /** The number of naturals in `[1, x]` that pass `is_prime`; decidable by evaluation on literals. */
  function CountIsPrime(x: nat): nat
  {
    if x == 0 then 0 else CountIsPrime(x - 1) + (if IsPrime(x) then 1 else 0)
  }

  lemma {:induction false} CountIsPrimeAgrees(x: nat)
    ensures CountIsPrime(x) == PrimeCount(x)
  {
    if x > 0 {
      CountIsPrimeAgrees(x - 1);
      IsPrimeCorrect(x);
    }
  }

  /** Counting primes never goes down. */
  lemma {:induction false} PrimeCountMonotone(x: nat, y: nat)
    requires x <= y
    ensures PrimeCount(x) <= PrimeCount(y)
    decreases y - x
  {
    if x < y {
      PrimeCountMonotone(x, y - 1);
    }
  }

  /** The primes up to 10 end with 2, 3, 5, 7. */
  lemma CountTo10()
    ensures CountIsPrime(10) == 4
  {
  }

  /** The primes up to 20 end with 11, 13, 17, 19. */
  lemma CountTo20()
    ensures CountIsPrime(20) == 8
  {
    CountTo10();
  }

  /** The primes up to 30 end with 23, 29. */
  lemma CountTo30()
    ensures CountIsPrime(30) == 10
  {
    CountTo20();
  }

  /** The primes up to 40 end with 31, 37. */
  lemma CountTo40()
    ensures CountIsPrime(40) == 12
  {
    CountTo30();
  }

  /** The primes up to 50 end with 41, 43, 47. */
  lemma CountTo50()
    ensures CountIsPrime(50) == 15
  {
    CountTo40();
  }

  /** The primes up to 60 end with 53, 59. */
  lemma CountTo60()
    ensures CountIsPrime(60) == 17
  {
    CountTo50();
  }

  /** The primes up to 70 end with 61, 67. */
  lemma CountTo70()
    ensures CountIsPrime(70) == 19
  {
    CountTo60();
  }

  /** The primes up to 80 end with 71, 73, 79. */
  lemma CountTo80()
    ensures CountIsPrime(80) == 22
  {
    CountTo70();
  }

  /** The primes up to 90 end with 83, 89. */
  lemma CountTo90()
    ensures CountIsPrime(90) == 24
  {
    CountTo80();
  }

  /** The primes up to 100 end with 97. */
  lemma CountTo100()
    ensures CountIsPrime(100) == 25
  {
    CountTo90();
  }

  /** Two primes with the same number of primes up to them are the same prime. */
  lemma {:induction false} PrimeCountPinsPrime(v: nat, w: nat)
    requires Prime(v) && Prime(w)
    requires PrimeCount(v) == PrimeCount(w)
    ensures v == w
  {
    if v < w {
      PrimeCountMonotone(v, w - 1);
    } else if w < v {
      PrimeCountMonotone(w, v - 1);
    }
  }

  /** 101 is the only prime with exactly 26 primes up to it. */
  lemma TwentySixthPrime(v: nat)
    requires Prime(v) && PrimeCount(v) == 26
    ensures v == 101
  {
    CountTo100();
    assert IsPrime(101);
    assert CountIsPrime(101) == 26;
    CountIsPrimeAgrees(101);
    IsPrimeCorrect(101);
    PrimeCountPinsPrime(v, 101);
  }

  /**
    Small values as the code computes them from `Phase::new()`: index 0
    gives 0 for both recurrences, Fibonacci gives 5 at 5 and 55 at 10, and
    the primes machine gives 2 at 1 and 11 at 5.
  */
  lemma SmallValues(m: Machine)
    ensures m.rec == Fibonacci ==> RawCalculate(m, 0) == 0 && RawCalculate(m, 5) == 5 && RawCalculate(m, 10) == 55
    ensures m.rec == Primes ==> RawCalculate(m, 0) == 0 && RawCalculate(m, 1) == 2 && RawCalculate(m, 5) == 11
  {
    if m.rec == Primes {
      assert IsPrime(2) && IsPrime(11);
      assert CountIsPrime(2) == 1 && CountIsPrime(11) == 5;
      CountIsPrimeAgrees(2);
      CountIsPrimeAgrees(11);
      IsPrimeCorrect(2);
      IsPrimeCorrect(11);
      PrimeCountPinsPrime(RawCalculate(m, 1), 2);
      PrimeCountPinsPrime(RawCalculate(m, 5), 11);
    } else {
      assert Fib(5) == 5;
      assert Fib(10) == 55;
    }
  }

  /** `lru_calculate(Machine::new(PrimesMachine{}, 128, 50), 26) == 101`. */
  lemma PrimesExample()
    ensures var r := LruCalculate(New(Primes, 128, 50), 26);
      r.Done? && r.value.1 == 101
  {
    var m := New(Primes, 128, 50);
    NewValid(Primes, 128, 50);
    LruCalculateCorrect(m, 26);
    TwentySixthPrime(RawCalculate(m, 26));
  }
}

=== FILE: machines.dfy ===
/**
  `Machine` and the free functions around it (src/machines.rs): a recurrence
  paired with a `MachineCache` and the two thresholds that decide when the
  cache is swept. `lru_calculate` resumes from the closest cached phase,
  sweeps when a threshold test fires, computes the answer and caches the
  resulting phase; `raw_calculate` computes from scratch and leaves the
  cache alone.

  The cache module is private to the crate and the machine's fields are
  private, so a machine outside the crate is only ever built by `new` and
  changed by `lru_calculate`. `Valid` is the invariant those two keep.
*/
module Machines {
  import opened Phases
  import opened Primality
  import opened Calculators
  import opened Caches

  /** `Machine<u128, u128, MM>`: the recurrence `MM` is one of the two constructors of `Recurrence`. */
  datatype Machine = Machine(cache: Cache, rec: Recurrence, maxEntryCap: nat, maxUsageAge: nat)

  /**
    What a call that can hit the `expect("usage count")` inside the sweep
    returns: its value, or the panic with the input whose age was missing.
    `MachineError` has no values, so no other failure exists.
  */
  datatype Outcome<T> = Done(value: T) | Panicked(input: nat)

  /** `Machine::new(machine, max_entries, max_age)`: an empty cache and the two thresholds. */
  function New(rec: Recurrence, maxEntries: nat, maxAge: nat): (m: Machine)
    ensures Len(m.cache) == 0 && HighestUsage(m.cache) == 0
    ensures m.rec == rec && m.maxEntryCap == maxEntries && m.maxUsageAge == maxAge
  {
    Machine(Empty(), rec, maxEntries, maxAge)
  }

  /** `is_too_big()`, as written: the entry cap is at least the number of phases held. */
  predicate IsTooBig(m: Machine)
  {
    m.maxEntryCap >= Len(m.cache)
  }

  /** `is_too_old()`, as written: the age cap is at least the highest age on record. */
  predicate IsTooOld(m: Machine)
  {
    m.maxUsageAge >= HighestUsage(m.cache)
  }

  /**
    The two tests fire while the cache is within its caps, not beyond them:
    a cache that has grown past the entry cap and holds at least one index
    older than the age cap is the one case that is never swept, and a machine
    at or below either cap is swept on every call.
  */
  lemma SweepTrigger(m: Machine)
    ensures !(IsTooBig(m) || IsTooOld(m)) <==> Len(m.cache) > m.maxEntryCap && HighestUsage(m.cache) > m.maxUsageAge
    ensures Len(m.cache) == 0 ==> IsTooBig(m)
  {
  }

  /** `lookup(n)`: `find_closest` on the cache. */
  function Lookup(m: Machine, n: nat): (r: (Machine, CacheResult<Phase>))
    ensures r.0.rec == m.rec && r.0.maxEntryCap == m.maxEntryCap && r.0.maxUsageAge == m.maxUsageAge
    ensures r.0.cache.entries == m.cache.entries
    ensures r.1.Ok? <==> exists e :: e in m.cache.entries && e.input <= n
    ensures r.1.Ok? ==> r.1.value in m.cache.entries && r.1.value.input <= n
    ensures r.1.Ok? ==> forall e :: e in m.cache.entries && e.input <= n && e != r.1.value ==> Less(e, r.1.value)
    ensures r.1.Ok? ==> r.0.cache.usages.Keys == m.cache.usages.Keys + {n} && r.0.cache.usages[n] == 0
    ensures r.1.Ok? ==> forall k :: k in m.cache.usages && k != n ==> r.0.cache.usages[k] == m.cache.usages[k] + 1
    ensures r.1.Err? ==> r.0 == m
  {
    var f := FindClosest(m.cache, n);
    (m.(cache := f.0), f.1)
  }

  /**
    `lru_find_phase(n)`: the phase found by `lookup`, or `Phase::new()` on a
    miss. Either way the phase starts at or below `n`. A hit is the greatest
    cached phase in phase order with input at most `n`, and ages the cache as
    `lookup` does; a miss leaves the machine as it was.
  */
  function FindPhase(m: Machine, n: nat): (r: (Machine, Phase))
    ensures r.0.rec == m.rec && r.0.maxEntryCap == m.maxEntryCap && r.0.maxUsageAge == m.maxUsageAge
    ensures r.0.cache.entries == m.cache.entries
    ensures r.0.cache.usages.Keys >= m.cache.usages.Keys
    ensures Input(r.1) <= n
    ensures r.1 in m.cache.entries || r.1 == Zero()
    ensures (exists e :: e in m.cache.entries && e.input <= n) ==>
      && r.1 in m.cache.entries
      && (forall e :: e in m.cache.entries && e.input <= n && e != r.1 ==> Less(e, r.1))
      && r.0.cache.usages.Keys == m.cache.usages.Keys + {n} && r.0.cache.usages[n] == 0
      && forall k :: k in m.cache.usages && k != n ==> r.0.cache.usages[k] == m.cache.usages[k] + 1
    ensures !(exists e :: e in m.cache.entries && e.input <= n) ==> r == (m, Zero())
  {
    var f := Lookup(m, n);
    if f.1.Ok? then (f.0, f.1.value) else (f.0, Zero())
  }

  /** The predicate `lru_drop_if_capacity_met` hands to the sweep: every phase passes. */
  predicate AcceptAll(p: Phase)
  {
    true
  }

  /**
    `lru_drop_if_capacity_met()`: when either threshold test fires, sweep
    with a predicate that accepts every phase; the sweep's result is
    discarded but its panic is not, and it panics whenever a cached phase has
    no age. A sweep that runs removes the phases that
    held the highest age, drops exactly the ages of the removed phases' inputs,
    and on a well-aged cache keeps a phase exactly when its age is below that
    of some index still on record when the sweep reaches it.
  */
  function DropIfCapacityMet(m: Machine): (r: Outcome<Machine>)
    ensures r.Done? ==> r.value.rec == m.rec && r.value.maxEntryCap == m.maxEntryCap && r.value.maxUsageAge == m.maxUsageAge
    ensures r.Done? ==> r.value.cache.entries <= m.cache.entries
    ensures !IsTooBig(m) && !IsTooOld(m) ==> r == Done(m)
    ensures (IsTooBig(m) || IsTooOld(m)) && r.Done? ==>
              forall p :: p in r.value.cache.entries ==>
                p.input in m.cache.usages && m.cache.usages[p.input] < HighestUsage(m.cache)
    ensures (IsTooBig(m) || IsTooOld(m)) && r.Done? ==>
              forall p :: p in m.cache.entries && p.input in m.cache.usages && m.cache.usages[p.input] == HighestUsage(m.cache) ==>
                p !in r.value.cache.entries
    ensures (IsTooBig(m) || IsTooOld(m)) && r.Done? ==>
              AgesRemoved(m.cache.usages, set p | p in m.cache.entries - r.value.cache.entries :: p.input, r.value.cache.usages)
    ensures WellAged(m.cache) ==> r.Done? && WellAged(r.value.cache)
    ensures (IsTooBig(m) || IsTooOld(m)) && (exists p :: p in m.cache.entries && p.input !in m.cache.usages) ==>
              r.Panicked?
    ensures (IsTooBig(m) || IsTooOld(m)) && WellAged(m.cache) ==>
      (&& r.Done?
       && var order := Descending(m.cache.entries);
          forall i :: 0 <= i < |order| ==>
            (order[i] in r.value.cache.entries <==>
               KeptBySweep(m.cache.usages, order[i], GoneBefore(order, r.value.cache.entries, i), AcceptAll)))
  {
    if IsTooBig(m) || IsTooOld(m) then
      match DropInvalid(m.cache, AcceptAll)
      case Swept(c, dropped) =>
        InputsOfElements(dropped);
        Done(m.(cache := c))
      case MissingUsage(i) => Panicked(i)
    else
      Done(m)
  }

  /**
    The machine's sweep accepts every phase, so only ages decide: when every
    cached phase carries the highest age, a sweep that runs empties the cache.
  */
  lemma DropAllTied(m: Machine)
    requires IsTooBig(m) || IsTooOld(m)
    requires forall p :: p in m.cache.entries ==>
               p.input in m.cache.usages && m.cache.usages[p.input] == HighestUsage(m.cache)
    ensures DropIfCapacityMet(m).Done? ==> DropIfCapacityMet(m).value.cache.entries == {}
  {
  }

  /**
    `lru_do_calculation(n, phase)`: run the recurrence from `phase` to `n`,
    push the phase reached (which ages every other index), and answer its
    head slot.
  */
  function DoCalculation(m: Machine, n: nat, p: Phase): (r: (Machine, nat))
    requires Steppable(m.rec, p)
    ensures r.0.rec == m.rec && r.0.maxEntryCap == m.maxEntryCap && r.0.maxUsageAge == m.maxUsageAge
    ensures var q := Calculate(m.rec, n, p);
      && r.0.cache.entries == m.cache.entries + {q}
      && Input(q) == n && r.1 == Result(q)
    ensures r.0.cache.usages.Keys == m.cache.usages.Keys + {n} && r.0.cache.usages[n] == 0
    ensures forall k :: k in m.cache.usages && k != n ==> r.0.cache.usages[k] == m.cache.usages[k] + 1
  {
    var q := Calculate(m.rec, n, p);
    (m.(cache := Push(m.cache, q)), Result(q))
  }

  /** Every cached phase is one the recurrence can step from without diverging. */
  predicate Runnable(m: Machine)
  {
    forall e :: e in m.cache.entries ==> Steppable(m.rec, e)
  }

  /**
    `lru_calculate(mm, n)`: find the closest phase, sweep if due, then
    calculate from the phase found and cache the result. The phase found is
    a copy, so the sweep removing it from the cache does not matter.
  */
  function LruCalculate(m: Machine, n: nat): (r: Outcome<(Machine, nat)>)
    requires Runnable(m)
    ensures r.Done? ==> r.value.0.rec == m.rec && r.value.0.maxEntryCap == m.maxEntryCap && r.value.0.maxUsageAge == m.maxUsageAge
    ensures r.Done? ==> exists q :: q in r.value.0.cache.entries && Input(q) == n && Result(q) == r.value.1
    ensures r.Done? ==> n in r.value.0.cache.usages && r.value.0.cache.usages[n] == 0
  {
    var f := FindPhase(m, n);
    var d := DropIfCapacityMet(f.0);
    if d.Panicked? then Panicked(d.input)
    else
      assert Steppable(m.rec, f.1);
      var r := DoCalculation(d.value, n, f.1);
      assert Calculate(m.rec, n, f.1) in r.0.cache.entries;
      Done(r)
  }

  /**
    `raw_calculate(mm, n)`: calculate from `Phase::new()` without touching
    the cache. For Fibonacci the answer is F(n); for primes it is the `n`-th
    prime (0 at `n = 0`).
  */
  function RawCalculate(m: Machine, n: nat): (v: nat)
    ensures m.rec == Fibonacci ==> v == Fib(n)
    ensures m.rec == Primes ==> (n >= 1 ==> Prime(v)) && PrimeCount(v) == n
    ensures m.rec == Primes && n == 0 ==> v == 0
  {
    if m.rec == Fibonacci then
      FibonacciResult(n);
      Result(Calculate(m.rec, n, Zero()))
    else
      PrimesResult(n);
      assert n == 0 ==> Calculate(m.rec, n, Zero()) == Zero();
      Result(Calculate(m.rec, n, Zero()))
  }

  // ---------------------------------------------------------------------
  // The machine invariant
  // ---------------------------------------------------------------------

  /**
    Every cached phase is the one the recurrence reaches from zero at its
    input, and the cache is well aged.
  */
  predicate Valid(m: Machine)
  {
    && (forall e :: e in m.cache.entries ==> e == FromZero(m.rec, e.input))
    && WellAged(m.cache)
  }

  /** A freshly built machine is valid, whatever its thresholds. */
  lemma NewValid(rec: Recurrence, maxEntries: nat, maxAge: nat)
    ensures Valid(New(rec, maxEntries, maxAge))
  {
  }

  lemma ValidRunnable(m: Machine)
    requires Valid(m)
    ensures Runnable(m)
  {
  }

  /** `Phase::new()` is where every recurrence stands at index 0. */
  lemma ZeroFromZero(rec: Recurrence)
    ensures FromZero(rec, 0) == Zero()
  {
    AccessorLaws(Zero(), 0, 0, 0);
  }

  /** The phase `lru_find_phase` hands over, on a valid machine, is the one from zero at its input. */
  lemma FindPhaseValid(m: Machine, n: nat)
    requires Valid(m)
    ensures var f := FindPhase(m, n);
      && Valid(f.0)
      && f.1 == FromZero(m.rec, Input(f.1))
  {
    var f := FindPhase(m, n);
    if f.1 !in m.cache.entries {
      ZeroFromZero(m.rec);
    }
    assert f.0.cache.entries == m.cache.entries && f.0.rec == m.rec;
    assert WellAged(f.0.cache);
  }

  /** On a runnable, well-aged machine the sweep does not panic and `lru_calculate` is the three stages in order. */
  lemma LruCalculateSteps(m: Machine, n: nat)
    requires Runnable(m) && WellAged(m.cache)
    ensures DropIfCapacityMet(FindPhase(m, n).0).Done?
    ensures Steppable(m.rec, FindPhase(m, n).1)
    ensures LruCalculate(m, n)
         == Done(DoCalculation(DropIfCapacityMet(FindPhase(m, n).0).value, n, FindPhase(m, n).1))
  {
    assert WellAged(FindPhase(m, n).0.cache);
  }

  /** On a valid machine the sweep cannot panic and leaves the machine valid. */
  lemma DropValid(m: Machine)
    requires Valid(m)
    ensures DropIfCapacityMet(m).Done?
    ensures Valid(DropIfCapacityMet(m).value) && DropIfCapacityMet(m).value.rec == m.rec
  {
  }

  /** A push of the phase reached from zero keeps the machine valid. */
  lemma PushValid(m: Machine, q: Phase)
    requires Valid(m)
    requires q == FromZero(m.rec, Input(q))
    ensures Valid(m.(cache := Push(m.cache, q)))
  {
  }

  /**
    On a valid machine `lru_calculate` never panics, answers what
    `raw_calculate` answers, keeps the machine valid, and leaves the phase
    for `n` in the cache with age 0.
  */
  lemma LruCalculateCorrect(m: Machine, n: nat)
    requires Valid(m)
    ensures Runnable(m)
    ensures var r := LruCalculate(m, n);
      && r.Done?
      && r.value.1 == RawCalculate(m, n)
      && Valid(r.value.0)
      && FromZero(m.rec, n) in r.value.0.cache.entries
      && r.value.0.rec == m.rec
  {
    ValidRunnable(m);
    var f := FindPhase(m, n);
    FindPhaseValid(m, n);
    DropValid(f.0);
    var m2 := DropIfCapacityMet(f.0).value;
    LruCalculateSteps(m, n);
    var q := Calculate(m.rec, n, f.1);
    ResumeFromZero(m.rec, Input(f.1), n);
    assert q == FromZero(m.rec, n);
    var d := DoCalculation(m2, n, f.1);
    assert d.0 == m2.(cache := Push(m2.cache, q));
    PushValid(m2, q);
    assert d.1 == Result(FromZero(m.rec, n));
  }

  /** The raw answer depends on the recurrence only, not on the cache or the thresholds. */
  lemma RawCalculateOnlyRecurrence(m: Machine, m': Machine, n: nat)
    requires m.rec == m'.rec
    ensures RawCalculate(m, n) == RawCalculate(m', n)
  {
  }

  /**
    One `lru_calculate(mm, n)` call as a public caller makes it, on a machine
    built by `new` and earlier calls: it answers what `raw_calculate`
    answers and hands back a machine the next call can use.
  */
  method Query(m: Machine, n: nat) returns (m': Machine, v: nat)
    requires Valid(m)
    ensures Valid(m') && m'.rec == m.rec
    ensures m'.maxEntryCap == m.maxEntryCap && m'.maxUsageAge == m.maxUsageAge
    ensures v == RawCalculate(m, n)
    ensures FromZero(m.rec, n) in m'.cache.entries
  {
    LruCalculateCorrect(m, n);
    var r := LruCalculate(m, n);
    m' := r.value.0;
    v := r.value.1;
  }

  /**
    Answering a list of queries one `lru_calculate` after another, starting
    from a valid machine: every answer is the raw answer and the machine
    stays valid throughout.
  */
  method Serve(m: Machine, ns: seq<nat>) returns (m': Machine, vs: seq<nat>)
    requires Valid(m)
    ensures Valid(m') && m'.rec == m.rec
    ensures |vs| == |ns|
    ensures forall i :: 0 <= i < |ns| ==> vs[i] == RawCalculate(m, ns[i])
  {
    m' := m;
    vs := [];
    var i := 0;
    while i < |ns|
      invariant 0 <= i <= |ns|
      invariant Valid(m') && m'.rec == m.rec
      invariant |vs| == i
      invariant forall j :: 0 <= j < i ==> vs[j] == RawCalculate(m, ns[j])
    {
      var v;
      m', v := Query(m', ns[i]);
      RawCalculateOnlyRecurrence(m', m, ns[i]);
      vs := vs + [v];
      i := i + 1;
    }
  }
}

=== FILE: phases.dfy ===
/**
  The checkpoint record of the recurrence engine (src/phases.rs), instantiated
  at `Phase<u128, u128>` with unbounded naturals in place of `u128`.

  A phase holds a fixed window of three values and the index `input` those
  values belong to. The derived `Ord` compares the window lexicographically
  first and the index second; that order is what the cache iterates in.
*/
module Phases {

  /** `PHASE_SIZE`: the number of value slots in every phase. */
  const PhaseSize: nat := 3

  /** The slot array `[T; PHASE_SIZE]`. */
  type Window = s: seq<nat> | |s| == PhaseSize witness [0, 0, 0]

  datatype Phase = Phase(slots: Window, input: nat)

  /** `Phase::new()`: every slot and the input take their default value 0. */
  function Zero(): (p: Phase)
    ensures p.input == 0
    ensures forall i :: 0 <= i < PhaseSize ==> p.slots[i] == 0
  {
    Phase([0, 0, 0], 0)
  }

  /** `phase.input()`: the index this phase stands for. */
  function Input(p: Phase): nat
  {
    p.input
  }

  /** `phase.result()`: the head slot, the value computed at `Input(p)`. */
  function Result(p: Phase): nat
  {
    p.slots[0]
  }

  /** `phase[i]` (the `Index` impl); indexing past the window panics in the source. */
  function At(p: Phase, i: nat): nat
    requires i < PhaseSize
  {
    p.slots[i]
  }

  /** `phase[i] = v` (the `IndexMut` impl). */
  function Set(p: Phase, i: nat, v: nat): (q: Phase)
    requires i < PhaseSize
    ensures q.input == p.input
    ensures At(q, i) == v
    ensures forall j :: 0 <= j < PhaseSize && j != i ==> At(q, j) == At(p, j)
  {
    Phase(p.slots[i := v], p.input)
  }

  /** `phase.setinput(&n)`: replaces the index, the window is left alone. */
  function SetInput(p: Phase, n: nat): (q: Phase)
    ensures Input(q) == n
    ensures q.slots == p.slots
  {
    Phase(p.slots, n)
  }

  /**
    `phase.rotate(k)`, i.e. `rotate_right(k)` on the slot array: the last
    `k` slots move to the front. `rotate_right` panics for `k > 3`.
  */
  function Rotate(p: Phase, k: nat): (q: Phase)
    requires k <= PhaseSize
    ensures Input(q) == Input(p)
  {
    Phase(p.slots[PhaseSize - k..] + p.slots[..PhaseSize - k], p.input)
  }

  /** A right rotation by `k` moves the value in slot `i` to slot `(i + k) % 3`. */
  lemma RotateMoves(p: Phase, k: nat, i: nat)
    requires k <= PhaseSize && i < PhaseSize
    ensures Rotate(p, k).slots[(i + k) % PhaseSize] == p.slots[i]
  {
  }

  /** Reading back what was written, and leaving everything else alone. */
  lemma AccessorLaws(p: Phase, i: nat, v: nat, n: nat)
    requires i < PhaseSize
    ensures Result(Set(p, 0, v)) == v
    ensures Input(Set(p, i, v)) == Input(p)
    ensures Set(p, i, At(p, i)) == p
    ensures Input(SetInput(p, n)) == n && Result(SetInput(p, n)) == Result(p)
    ensures SetInput(p, Input(p)) == p
    ensures SetInput(SetInput(p, n), Input(p)) == p
  {
    assert Set(p, i, At(p, i)).slots == p.slots;
  }

  /**
    A right rotation by one sends `[a, b, c]` to `[c, a, b]`: slots 0 and 1
    keep their values exactly when all three slots are equal, although the
    doc comment of `rotate` describes them as staying put.
  */
  lemma RotateOne(p: Phase)
    ensures Rotate(p, 1).slots == [p.slots[2], p.slots[0], p.slots[1]]
    ensures Rotate(p, 1).slots[..2] == p.slots[..2] <==> p.slots[0] == p.slots[1] == p.slots[2]
  {
  }

  /** Rotating by `k` and then by `3 - k` restores the phase; 0 and 3 are the identity. */
  lemma RotateInverse(p: Phase, k: nat)
    requires k <= PhaseSize
    ensures Rotate(Rotate(p, k), PhaseSize - k) == p
    ensures Rotate(p, 0) == p && Rotate(p, PhaseSize) == p
  {
    var w := p.slots;
    assert Rotate(p, 0).slots == w;
    assert Rotate(p, PhaseSize).slots == w;
    if k == 1 {
      assert Rotate(Rotate(p, 1), 2).slots == w;
    } else if k == 2 {
      assert Rotate(Rotate(p, 2), 1).slots == w;
    }
  }

  // ---------------------------------------------------------------------
  // The derived order
  // ---------------------------------------------------------------------

  datatype Ordering = Lt | Eq | Gt {
    function Flip(): Ordering
    {
      match this
      case Lt => Gt
      case Eq => Eq
      case Gt => Lt
    }
  }

  function CompareNat(a: nat, b: nat): Ordering
  {
    if a < b then Lt else if a == b then Eq else Gt
  }

  /** Derived `Ord` of an array: element by element, the first difference decides. */
  function CompareSlots(a: seq<nat>, b: seq<nat>): Ordering
    requires |a| == |b|
  {
    if |a| == 0 then Eq
    else match CompareNat(a[0], b[0])
      case Eq => CompareSlots(a[1..], b[1..])
      case o => o
  }

  /** Derived `Ord` of `Phase`: the window first, the input breaks ties. */
  function Compare(p: Phase, q: Phase): Ordering
  {
    match CompareSlots(p.slots, q.slots)
    case Eq => CompareNat(p.input, q.input)
    case o => o
  }

  predicate Less(p: Phase, q: Phase)
  {
    Compare(p, q) == Lt
  }

  /** `a` is lexicographically below `b`: they agree up to some slot, where `a` is smaller. */
  ghost predicate LexBelow(a: seq<nat>, b: seq<nat>)
    requires |a| == |b|
  {
    exists i :: 0 <= i < |a| && a[..i] == b[..i] && a[i] < b[i]
  }

  /** The slot comparison agrees with the textbook lexicographic order, in both directions. */
  lemma {:induction false} CompareSlotsLexicographic(a: seq<nat>, b: seq<nat>)
    requires |a| == |b|
    ensures CompareSlots(a, b) == Lt <==> LexBelow(a, b)
    ensures CompareSlots(a, b) == Eq <==> a == b
    ensures CompareSlots(b, a) == CompareSlots(a, b).Flip()
    decreases |a|
  {
    if |a| != 0 {
      CompareSlotsLexicographic(a[1..], b[1..]);
      if a[0] == b[0] {
        if LexBelow(a, b) {
          var i :| 0 <= i < |a| && a[..i] == b[..i] && a[i] < b[i];
          assert i > 0;
          assert a[1..][..i - 1] == a[..i][1..] == b[..i][1..] == b[1..][..i - 1];
          assert a[1..][i - 1] < b[1..][i - 1];
        }
        if LexBelow(a[1..], b[1..]) {
          var i :| 0 <= i < |a| - 1 && a[1..][..i] == b[1..][..i] && a[1..][i] < b[1..][i];
          assert a[..i + 1] == [a[0]] + a[1..][..i];
          assert b[..i + 1] == [b[0]] + b[1..][..i];
        }
        if a[1..] == b[1..] {
          assert a == [a[0]] + a[1..] && b == [b[0]] + b[1..];
        }
      } else if a[0] < b[0] {
        assert a[..0] == b[..0];
      }
    }
  }

  /** `Compare` answers `Eq` exactly on equal phases and is antisymmetric. */
  lemma CompareEqualFlip(p: Phase, q: Phase)
    ensures Compare(p, q) == Eq <==> p == q
    ensures Compare(q, p) == Compare(p, q).Flip()
  {
    CompareSlotsLexicographic(p.slots, q.slots);
  }

  lemma {:induction false} CompareSlotsTransitive(a: seq<nat>, b: seq<nat>, c: seq<nat>)
    requires |a| == |b| == |c|
    requires CompareSlots(a, b) == Lt && CompareSlots(b, c) == Lt
    ensures CompareSlots(a, c) == Lt
    decreases |a|
  {
    if a[0] == b[0] && b[0] == c[0] {
      CompareSlotsTransitive(a[1..], b[1..], c[1..]);
    } else if a[0] == b[0] {
      CompareSlotsLexicographic(a[1..], b[1..]);
    } else if b[0] == c[0] {
      CompareSlotsLexicographic(b[1..], c[1..]);
    }
  }

  /**
    `Less` is a strict total order on phases: irreflexive, asymmetric,
    transitive and connected. This is what makes the cache's ordered
    iteration well defined.
  */
  lemma LessStrictTotal(p: Phase, q: Phase, r: Phase)
    ensures !Less(p, p)
    ensures Less(p, q) ==> !Less(q, p)
    ensures p != q ==> Less(p, q) || Less(q, p)
    ensures Less(p, q) && Less(q, r) ==> Less(p, r)
  {
    CompareEqualFlip(p, p);
    CompareEqualFlip(p, q);
    if Less(p, q) && Less(q, r) {
      CompareSlotsLexicographic(p.slots, q.slots);
      CompareSlotsLexicographic(q.slots, r.slots);
      CompareSlotsLexicographic(p.slots, r.slots);
      if CompareSlots(p.slots, q.slots) == Lt && CompareSlots(q.slots, r.slots) == Lt {
        CompareSlotsTransitive(p.slots, q.slots, r.slots);
      }
    }
  }

  /** The window decides the order unless the windows are equal, then the input does. */
  lemma LessWindowFirst(p: Phase, q: Phase)
    ensures p.slots != q.slots ==> (Less(p, q) <==> LexBelow(p.slots, q.slots))
    ensures p.slots == q.slots ==> (Less(p, q) <==> p.input < q.input)
  {
    CompareSlotsLexicographic(p.slots, q.slots);
  }
}

=== FILE: primality.dfy ===
/**
  The prime helpers shared by `PrimesMachine` (src/machines.rs) and
  `Primes` (src/calculators.rs): `is_prime`, a 6k±1 trial division, and
  `next_prime`, a search over odd candidates. Both files carry the same code;
  it is modelled once here.
*/
module Primality {

  /** `d` divides `n` (with `d` positive). */
  predicate Divides(d: nat, n: nat)
  {
    d > 0 && n % d == 0
  }

  /** Reference definition of primality: at least 2, with no divisor strictly between 1 and itself. */
  predicate Prime(n: nat)
  {
    n >= 2 && forall d :: 2 <= d < n ==> !Divides(d, n)
  }

  // ---------------------------------------------------------------------
  // Divisibility facts
  // ---------------------------------------------------------------------

  /** Euclidean division leaves a unique remainder. */
  lemma ModUnique(y: int, a: int, q: int, r: int)
    requires a > 0 && y == a * q + r && 0 <= r < a
    ensures y % a == r
  {
    var t := q - y / a;
    assert a * t == y % a - r;
  }

  lemma MulMod(a: nat, x: nat)
    requires a > 0
    ensures (a * x) % a == 0
  {
    ModUnique(a * x, a, x, 0);
  }

  /** Divisibility is transitive. */
  lemma DividesTransitive(a: nat, b: nat, c: nat)
    requires Divides(a, b) && Divides(b, c)
    ensures Divides(a, c)
  {
    var x := b / a;
    var y := c / b;
    assert b == a * x;
    assert c == b * y;
    assert c == a * (x * y);
    MulMod(a, x * y);
  }

  /** The multiples of `d` are divisible by `d`. */
  lemma DividesMultiple(d: nat, x: nat)
    requires d > 0
    ensures Divides(d, d * x)
  {
    MulMod(d, x);
  }

  /** No number above 1 divides two consecutive naturals. */
  lemma DividesConsecutive(d: nat, a: nat)
    requires Divides(d, a) && Divides(d, a + 1)
    ensures d == 1
  {
    if d >= 2 {
      var x := a / d;
      assert a == d * x;
      ModUnique(a + 1, d, x, 1);
    }
  }

  lemma MulAtLeast(a: nat, b: nat, c: nat)
    requires a >= c && b >= c
    ensures a * b >= c * c
  {
    assert a * b >= c * b;
    assert c * b >= c * c;
  }

  /** An even number above 2 is not prime. */
  lemma EvenNotPrime(n: nat)
    requires n > 2 && n % 2 == 0
    ensures !Prime(n)
  {
    assert Divides(2, n);
  }

  // ---------------------------------------------------------------------
  // `is_prime`: 6k±1 trial division
  // ---------------------------------------------------------------------

  /** `is_prime(n)` for `u128`, with unbounded naturals in place of `u128`. */
  function IsPrime(n: nat): bool
  {
    if n <= 1 then false
    else if n <= 3 then true
    else if n % 2 == 0 || n % 3 == 0 then false
    else TrialFrom(n, 5)
  }

  /** The `while stepper.pow(2) <= n` loop of `is_prime`, one iteration per call. */
  function TrialFrom(n: nat, stepper: nat): bool
    requires stepper >= 5
    decreases n - stepper
  {
    if stepper * stepper > n then true
    else if n % stepper == 0 || n % (stepper + 2) == 0 then false
    else
      MulAtLeast(stepper, stepper, 1);
      TrialFrom(n, stepper + 6)
  }

  /** Once `stepper * stepper > n`, a divisor-free prefix below `stepper` means `n` is prime. */
  lemma NoSmallDivisorPrime(n: nat, stepper: nat)
    requires n >= 2 && stepper * stepper > n
    requires forall d :: 2 <= d < stepper && d < n ==> !Divides(d, n)
    ensures Prime(n)
  {
    forall d | 2 <= d < n
      ensures !Divides(d, n)
    {
      if Divides(d, n) && d >= stepper {
        var q := n / d;
        assert n == d * q;
        if q >= stepper {
          MulAtLeast(d, q, stepper);
        }
        assert 2 <= q < stepper;
        assert n == q * d;
        DividesMultiple(q, d);
      }
    }
  }

  /** Of a block of six starting at `5 + 6k`, only the first and third can divide `n`. */
  lemma SkipMultiplesOfTwoAndThree(n: nat, stepper: nat)
    requires n % 2 != 0 && n % 3 != 0
    requires stepper >= 5 && stepper % 6 == 5
    requires n % stepper != 0 && n % (stepper + 2) != 0
    requires forall d :: 2 <= d < stepper && d < n ==> !Divides(d, n)
    ensures forall d :: 2 <= d < stepper + 6 && d < n ==> !Divides(d, n)
  {
    var j := stepper / 6;
    assert stepper == 6 * j + 5;
    forall d | 2 <= d < stepper + 6 && d < n
      ensures !Divides(d, n)
    {
      if Divides(d, n) && d > stepper && d != stepper + 2 {
        if d == stepper + 1 {
          DividesMultiple(2, 3 * j + 3);
          DividesTransitive(2, d, n);
        } else if d == stepper + 3 {
          DividesMultiple(2, 3 * j + 4);
          DividesTransitive(2, d, n);
        } else if d == stepper + 4 {
          DividesMultiple(3, 2 * j + 3);
          DividesTransitive(3, d, n);
        } else {
          DividesMultiple(2, 3 * j + 5);
          DividesTransitive(2, d, n);
        }
      }
    }
  }

  /**
    The loop's invariant: no divisor below `stepper`, where `stepper` is
    `5 + 6k`. Trying only `stepper` and `stepper + 2` is enough, because the
    other four numbers of each block of six are multiples of 2 or 3.
  */
  lemma {:induction false} TrialFromCorrect(n: nat, stepper: nat)
    requires n >= 5 && n % 2 != 0 && n % 3 != 0
    requires stepper >= 5 && stepper % 6 == 5
    requires forall d :: 2 <= d < stepper && d < n ==> !Divides(d, n)
    ensures TrialFrom(n, stepper) <==> Prime(n)
    decreases n - stepper
  {
    if stepper * stepper > n {
      NoSmallDivisorPrime(n, stepper);
    } else {
      MulAtLeast(stepper, stepper, 5);
      if n % stepper == 0 {
        assert Divides(stepper, n);
      } else if n % (stepper + 2) == 0 {
        assert Divides(stepper + 2, n);
      } else {
        SkipMultiplesOfTwoAndThree(n, stepper);
        TrialFromCorrect(n, stepper + 6);
      }
    }
  }

  /** `is_prime` decides primality exactly: false up to 1, true for 2 and 3, and so on. */
  lemma IsPrimeCorrect(n: nat)
    ensures IsPrime(n) <==> Prime(n)
  {
    if n >= 4 {
      if n % 2 == 0 {
        assert Divides(2, n);
      } else if n % 3 == 0 {
        assert Divides(3, n);
      } else {
        forall d | 2 <= d < 5 && d < n
          ensures !Divides(d, n)
        {
          if d == 4 && Divides(d, n) {
            DividesTransitive(2, 4, n);
          }
        }
        TrialFromCorrect(n, 5);
      }
    }
  }

  // ---------------------------------------------------------------------
  // There is always a next prime (Euclid)
  // ---------------------------------------------------------------------

  function Factorial(n: nat): (f: nat)
    ensures f >= 1
  {
    if n == 0 then 1 else n * Factorial(n - 1)
  }

  lemma {:induction false} FactorialDivisible(n: nat, d: nat)
    requires 1 <= d <= n
    ensures Divides(d, Factorial(n))
  {
    if d == n {
      DividesMultiple(n, Factorial(n - 1));
    } else {
      FactorialDivisible(n - 1, d);
      DividesMultiple(Factorial(n - 1), n);
      assert Factorial(n) == Factorial(n - 1) * n;
      DividesTransitive(d, Factorial(n - 1), Factorial(n));
    }
  }

  /** The least divisor of `m` that is at least `d`. */
  function LeastDivisorFrom(m: nat, d: nat): (r: nat)
    requires 2 <= d <= m
    ensures d <= r <= m && Divides(r, m)
    ensures forall e :: d <= e < r ==> !Divides(e, m)
    decreases m - d
  {
    if m % d == 0 then d else LeastDivisorFrom(m, d + 1)
  }

  /** The least divisor of `m >= 2` above 1 is prime. */
  lemma LeastDivisorPrime(m: nat)
    requires m >= 2
    ensures Prime(LeastDivisorFrom(m, 2))
  {
    var r := LeastDivisorFrom(m, 2);
    forall e | 2 <= e < r
      ensures !Divides(e, r)
    {
      if Divides(e, r) {
        DividesTransitive(e, r, m);
      }
    }
  }

  /** Euclid: above every natural lies a prime, the least divisor of `n! + 1`. */
  lemma PrimeAbove(n: nat) returns (p: nat)
    ensures Prime(p) && n < p
  {
    var m := Factorial(n) + 1;
    p := LeastDivisorFrom(m, 2);
    LeastDivisorPrime(m);
    if p <= n {
      FactorialDivisible(n, p);
      DividesConsecutive(p, Factorial(n));
    }
  }

  lemma LeastPrimeAboveExists(n: nat)
    ensures exists p :: n < p && Prime(p) && forall k :: n < k < p ==> !Prime(k)
  {
    var q := PrimeAbove(n);
    var p := n + 1;
    while !Prime(p)
      invariant n < p <= q
      invariant forall k :: n < k < p ==> !Prime(k)
      decreases q - p
    {
      p := p + 1;
    }
  }

  /** The least prime above `n`: the value `next_prime` is meant to find. */
  ghost function LeastPrimeAbove(n: nat): (p: nat)
    ensures n < p && Prime(p)
    ensures forall k :: n < k < p ==> !Prime(k)
  {
    LeastPrimeAboveExists(n);
    var p :| n < p && Prime(p) && forall k :: n < k < p ==> !Prime(k);
    p
  }

  // ---------------------------------------------------------------------
  // `next_prime`
  // ---------------------------------------------------------------------

  /**
    `next_prime(n)`. From `n >= 3` the source steps by 2 from `n + 2`, so
    for an even `n >= 4` it only visits even numbers and never returns:
    the precondition excludes exactly those arguments.
  */
  function NextPrime(n: nat): (r: nat)
    requires n <= 2 || n % 2 == 1
    ensures n < r
    ensures r == 2 || r % 2 == 1
  {
    if n == 0 then 2
    else if n == 1 || n == 2 then n + 1
    else
      EvenNotPrime(n + 1);
      var r := OddSearch(n, n + 2);
      PrimeOddOrTwo(r);
      r
  }

  /** `next_prime(n)` is the least prime above `n`: it is prime and nothing strictly between is. */
  lemma NextPrimeSpec(n: nat)
    requires n <= 2 || n % 2 == 1
    ensures Prime(NextPrime(n))
    ensures forall k :: n < k < NextPrime(n) ==> !Prime(k)
  {
    if n == 2 {
      assert !Divides(2, 3);
    }
  }

  /** The `while !is_prime(n) { n += 2 }` loop of `next_prime`, started at `n + 2`. */
  function OddSearch(n: nat, m: nat): (r: nat)
    requires n >= 3 && n % 2 == 1 && m % 2 == 1
    requires n < m <= LeastPrimeAbove(n)
    ensures r == LeastPrimeAbove(n)
    decreases LeastPrimeAbove(n) - m
  {
    IsPrimeCorrect(m);
    if IsPrime(m) then m
    else
      OddSearchSkips(n, m);
      OddSearch(n, m + 2)
  }

  /** A composite odd candidate below the next prime leaves room for the next odd one. */
  lemma OddSearchSkips(n: nat, m: nat)
    requires m > n >= 3 && m % 2 == 1
    requires m <= LeastPrimeAbove(n) && !Prime(m)
    ensures m + 2 <= LeastPrimeAbove(n)
  {
    EvenNotPrime(m + 1);
  }

  /** A prime other than 2 is odd, so `next_prime` may be applied to every prime. */
  lemma PrimeOddOrTwo(p: nat)
    requires Prime(p)
    ensures p == 2 || p % 2 == 1
  {
    if p > 2 && p % 2 == 0 {
      EvenNotPrime(p);
    }
  }
}
